=== FILE: README.md ===
# Feed routes of the community posts API, in Dafny

This project models `api/routes/posts.js`, the four read-only feed routes of
the community site's API:

- `/tags` returns posts carrying any of the requested tags, ranked by `score / score_avg`.
- `/trending` returns recent posts ranked by a decayed, per-`main_url` maximum strength.
- `/announcements` returns posts from the announcement channels, newest first.
- `/top` returns the five best-ranked posts of an age window.

Every route does the same things in the same order:

1. It normalises its parameters.
2. It derives a cache key.
3. On a hit, it answers with the stored list.
4. On a miss, it runs one SQL query.
5. It attaches each post's `post_tags` rows to that post.
6. It stores the list and answers with it.

If either storage call throws, the route answers 500 and stores nothing.

Modules, one file each:

- `Wrappers`: `Option` and `Result`.
- `Strings`: prefixes, `join`, and decimal rendering of ages.
- `JsNumber`: when a tag string is NaN to JavaScript. This follows the StringNumericLiteral grammar of ECMA-262, section 7.1.4.1.
- `Sorting`: the stable comparator sort used for `Array.prototype.sort` and for `ORDER BY`.
- `Rows`: the joined `sources` × `posts` rows, `main_url`, the channel prefixes, strengths and SQL NULL ordering.
- `Feed`: WHERE, `GROUP BY main_url`, ORDER BY DESC, and OFFSET/LIMIT.
- `Enrichment`: the post→tags join.
- `CacheGate`: the cache as a `map<string, seq<Post>>` threaded through each request, with a trace of cache and storage effects.
- `Keys`: request normalisation and cache keys.
- `Routes`: the four handlers and what each one promises about its answer.

Four choices that MySQL or the JavaScript engine leaves open are parameters, and every property holds whatever their values:

- which row of a `main_url` group supplies the non-aggregated columns (`pick`);
- how two numeric tags compare (`numberOrder`);
- `LOG10` of the score ratio (`logScore`);
- `UNIX_TIMESTAMP()` (`now`).

Three other open choices are fixed rather than parameters: the order of ORDER BY ties, the order in which rows are scanned, and the order of the `post_tags` rows. `## Left out` says how each is fixed.

Some behaviour follows from the code as written:

- The `/tags` key keeps the request order of non-numeric tags. `a - b` is NaN for them. A NaN comparator result counts as +0 (ECMA-262, section 23.1.3.30.2), and the sort is stable.
- Distinct tag lists can share a key, because a tag may itself contain `-`.
- The `/tags` key ignores `offset` and `limit`, so later pages of the same tags are answered from the first page's cache entry.
- Which row represents a group is not determined. The model promises only "some member of the group", never a maximum-strength or lowest-id member.

## Model

| member | source | states |
|---|---|---|
| Keys.TagList | api/routes/posts.js:13-19 | A request is rejected exactly when `tag` is missing or the empty string. A single tag becomes a one-element list. A repeated tag's list is passed through unchanged, even when it is empty. |
| Keys.SortTags | api/routes/posts.js:21 | Sorting the tags reorders them but keeps every tag with its multiplicity. |
| Keys.TagComparator | api/routes/posts.js:21 | Definition: the comparator `(a, b) => a - b` as the sort reads it. A NaN difference counts as 0, and two numeric tags compare by `numberOrder`. Its effect is stated by `Keys.NonNumericTagsKeepOrder`. |
| Keys.NonNumericTagsKeepOrder | api/routes/posts.js:21 | When no tag reads as a number, every `a - b` is NaN and counts as 0. The stable sort then returns the tags in request order. |
| Keys.TagOrderChangesKey | api/routes/posts.js:21-23 | Take two distinct non-numeric tags without `-`. Requesting them in opposite orders produces different `/tags` cache keys. |
| Keys.TagsKeyCollision | api/routes/posts.js:23 | `["a-b"]` and `["a", "b"]` are different lists with the same key `tags_a-b`. |
| Keys.TopKeysInjective | api/routes/posts.js:197 | `top${age}` keys are equal exactly when the ages are equal. |
| Keys.AnnouncementsKeysInjective | api/routes/posts.js:143 | `announcements${age}` keys are equal exactly when the ages are equal. |
| Keys.TagsKey | api/routes/posts.js:23 | Definition: `tags_` and the tags joined with `-`. Its properties are in `Keys.TagOrderChangesKey`, `Keys.TagsKeyCollision` and `Keys.RouteKeysDisjoint`. |
| Keys.TopKey | api/routes/posts.js:197 | Definition: `top` and the age in decimal. Its properties are in `Keys.TopKeysInjective` and `Keys.RouteKeysDisjoint`. |
| Keys.AnnouncementsKey | api/routes/posts.js:143 | Definition: `announcements` and the age in decimal. Its properties are in `Keys.AnnouncementsKeysInjective` and `Keys.RouteKeysDisjoint`. |
| Keys.RouteKeysDisjoint | api/routes/posts.js:23-197 | No `/tags`, `trending`, `top…` or `announcements…` key equals a key of another route, so the routes never read each other's entries. |
| Strings.DecimalRoundTrip | api/routes/posts.js:197 | The decimal text of an age, as interpolated into a key, reads back as that age. |
| Strings.DecimalInjective | api/routes/posts.js:143 | Two ages have the same decimal text exactly when they are equal. |
| Strings.SwappedJoinDiffers | api/routes/posts.js:23 | Joining two distinct separator-free strings in the two orders gives different texts. |
| JsNumber.LetterStartIsNaN | api/routes/posts.js:21 | A tag whose first non-blank character is a letter other than `I` is NaN, so `a - b` on it is NaN. |
| JsNumber.LiteralStart | api/routes/posts.js:21 | A non-blank numeric string starts with a sign, a digit, a dot or the `I` of `Infinity`. |
| Routes.TagsLimit | api/routes/posts.js:10 | The `/tags` limit is the requested limit capped at 100, or 50 when no limit is given. |
| Routes.TagsFilter | api/routes/posts.js:41-49 | Definition: the `/tags` WHERE clause. `text` is neither NULL nor empty, and `pid` has none of the four excluded channel prefixes. Results are stated in `Routes.TagsRun`. |
| Routes.TrendingFilter | api/routes/posts.js:109-113 | Definition: the `/trending` WHERE clause. The post is newer than 72 hours, `text` is neither NULL nor empty, the score is above 4, and `pid` is not from the general channel. Results are stated in `Routes.TrendingRun`. |
| Routes.TopFilter | api/routes/posts.js:214-221 | Definition: the `/top` WHERE clause. The post is within the age window, `text` is neither NULL nor empty, and `pid` has none of the four excluded prefixes. Results are stated in `Routes.TopRun`. |
| Routes.AnnouncementsFilter | api/routes/posts.js:160-166 | Definition: the `/announcements` WHERE clause. `pid` has one of the three enabled announcement prefixes, and the post is within the age window. There is no text test. Results are stated in `Routes.AnnouncementsRun`. |
| Routes.TagsPlan | api/routes/posts.js:29-54 | Definition: the `/tags` query. It uses `TagsFilter` with strength `score / score_avg` per row, ordered by strength DESC, with OFFSET `offset` and LIMIT `limit`. |
| Routes.TrendingPlan | api/routes/posts.js:91-118 | Definition: the `/trending` query. It uses `TrendingFilter` with strength the group `MAX` of decayed strength, ordered by strength DESC, with LIMIT 100. |
| Routes.TopPlan | api/routes/posts.js:203-226 | Definition: the `/top` query. It uses `TopFilter` with strength `score / score_avg` per row, ordered by strength DESC, with LIMIT 5. |
| Routes.AnnouncementsPlan | api/routes/posts.js:149-168 | Definition: the `/announcements` query. It uses `AnnouncementsFilter` with no strength column, ordered by `created_at` DESC, with no LIMIT. |
| Routes.Tags | api/routes/posts.js:13-15 | `/tags` answers 401 "missing tag param" exactly when the tag is missing or empty. It then reads no cache entry, runs no query and leaves the cache unchanged. |
| Routes.Trending | api/routes/posts.js:74-135 | `/trending` never answers a client error. A hit on `trending` answers the stored list after one cache read and nothing else. A miss whose feed query throws answers 500 with the error's text and leaves the cache unchanged. |
| Routes.Top | api/routes/posts.js:188-243 | `/top` never answers a client error. A hit on `top${age}` (168 by default) answers the stored list after one cache read and nothing else. A miss whose feed query throws answers 500 with the error's text and leaves the cache unchanged. |
| Routes.Announcements | api/routes/posts.js:137-185 | `/announcements` never answers a client error. A hit on `announcements${age}` (336 by default) answers the stored list after one cache read and nothing else. A miss whose feed query throws answers 500 with the error's text and leaves the cache unchanged. |
| Routes.TaggedRows | api/routes/posts.js:39-43 | After the left join with `post_tags` and `WHERE tag IN (...)`, a joined row survives exactly when one of its tag rows carries a requested tag. Tags are compared exactly, not under MySQL's collation. |
| Routes.Fetch | api/routes/posts.js:56-63 | The pipeline succeeds exactly when neither storage call throws. A throwing feed query stops before the tag lookup. Otherwise both calls run, in that order, and a throwing tag lookup is the failure. |
| Routes.MissAnswer | api/routes/posts.js:56-66 | A miss answered with a list answers with the feed query's rows, each with its tags. |
| Routes.EnrichServed | api/routes/posts.js:56-63 | The answer has one entry per query row, in order. Each entry is a joined row standing for its own `main_url`, no two entries share a `main_url`, and each carries exactly its post's tag rows. |
| Routes.TaggedInRequest | api/routes/posts.js:21-43 | A row kept by the sorted tag list carries a tag of the list as requested, because the sort changes order but not contents. |
| Routes.TagsRun | api/routes/posts.js:29-54 | The `/tags` query returns at most `limit` rows. Each has non-null, non-empty text, a pid outside the four excluded channels, and `score / score_avg` as its strength. |
| Routes.TagsOrder | api/routes/posts.js:38-51 | `/tags` rows run from high to low `score / score_avg`. |
| Routes.TagsServed | api/routes/posts.js:9-66 | A `/tags` miss answered with a list gives at most the clamped limit of distinct-`main_url` posts. Each has text, is outside the excluded channels, has a requested tag and carries its own tags. The list is ranked by `score / score_avg`. |
| Routes.TagsCount | api/routes/posts.js:29-54 | A `/tags` miss answered with a list holds one post per distinct `main_url` among the joined rows that pass the filter and carry a requested tag, cut to the window of `offset` and the clamped limit. A short page means no further such posts exist. |
| Routes.TrendingRun | api/routes/posts.js:77-118 | At most 100 rows are returned. Each is newer than 72 hours, has non-null, non-empty text, scores above 4 and is not from the general channel. |
| Routes.TrendingStrength | api/routes/posts.js:100-116 | Each `/trending` row's strength is the largest decayed strength among its `main_url` group's qualifying rows and is attained by one of them. |
| Routes.TrendingOrder | api/routes/posts.js:107 | `/trending` rows run from the strongest group down. |
| Routes.TrendingServed | api/routes/posts.js:77-130 | A `trending` miss answered with a list gives those rows, each with its tags, no two with the same `main_url`. |
| Routes.TrendingCount | api/routes/posts.js:77-118 | A `trending` miss answered with a list holds one post per qualifying `main_url`, up to 100: it is short only when fewer groups qualify. |
| Routes.TopRun | api/routes/posts.js:203-226 | At most five rows are returned. Each is inside the age window, has non-null, non-empty text, is outside the four excluded channels and carries `score / score_avg`. |
| Routes.TopOrder | api/routes/posts.js:212-223 | `/top` rows run from high to low `score / score_avg`. |
| Routes.TopServed | api/routes/posts.js:191-238 | A `top${age}` miss answered with a list gives those rows, each with its tags, distinct by `main_url`. The age defaults to 168 hours. |
| Routes.TopCount | api/routes/posts.js:191-226 | A `top${age}` miss answered with a list holds one post per qualifying `main_url`, up to five: it is short only when fewer groups qualify. |
| Routes.AnnouncementsRun | api/routes/posts.js:149-168 | Every row is from the network-status, announcements or rep-announcements channel and inside the age window. Beta announcements are excluded and there is no text filter. No strength column is selected. |
| Routes.AnnouncementsOrder | api/routes/posts.js:167 | `/announcements` rows run newest first. |
| Routes.AnnouncementsComplete | api/routes/posts.js:160-170 | With no limit, every `main_url` of a qualifying row appears in the answer. |
| Routes.AnnouncementsServed | api/routes/posts.js:141-180 | An `announcements${age}` miss answered with a list gives those rows with their tags, distinct by `main_url`, newest first and complete. The age defaults to 336 hours. |
| Routes.AnnouncementsCount | api/routes/posts.js:141-168 | An `announcements${age}` miss answered with a list holds exactly as many posts as there are qualifying `main_url`s. |
| Routes.TagsRepeat | api/routes/posts.js:23-27 | After `/tags` answered with a list, any request with the same tag parameter gets that list from the cache without storage calls. This holds whatever its offset or limit and whatever the tables now hold. |
| Routes.TrendingRepeat | api/routes/posts.js:86-89 | After `trending` answered with a list, every later request gets that list from the cache without storage calls. |
| CacheGate.Gate | api/routes/posts.js:24-70 | A hit answers with the stored list and touches nothing else. A miss answers with the computed list, or with 500 and the error's text. Only a successful miss stores, and it stores under the key the exact list it answers with. Other entries never change, and a failure leaves the cache unchanged. A miss's effects are exactly one lookup, the pipeline's storage calls once, and one store if the pipeline succeeded. |
| CacheGate.GateRepeat | api/routes/posts.js:24-27 | Asking again for a key just answered with a list returns the same list, leaves the cache alone and runs no pipeline, whatever that pipeline would now compute. |
| Rows.Join | api/routes/posts.js:39 | A row is in the join exactly when its source and post are in the tables and the post's `sid` is the source's id. |
| Rows.MainUrl | api/routes/posts.js:33 | Definition: `content_url`, or `url` when `content_url` is the empty string, compared exactly (see `## Left out`). It is the key of `Feed.UrlsInOrder` and `Feed.RunUrls`. |
| Rows.HasText | api/routes/posts.js:41-45 | Definition: `text IS NOT NULL AND NOT text = ''`, compared exactly (see `## Left out`). |
| Rows.WithinAge | api/routes/posts.js:214 | Definition: `created_at > now - age * 60 * 60`, over integers. |
| Rows.PlainStrength | api/routes/posts.js:38 | Definition: `score / score_avg`, which is NULL when `score_avg` is 0. Its ordering is stated in `Routes.TagsOrder` and `Routes.TopOrder`. |
| Rows.DecayedStrength | api/routes/posts.js:102 | Definition: `LOG10(score / score_avg) - (now - created_at) / 90000`, with the logarithm as the `logScore` parameter. Its ordering is stated in `Rows.DecayMonotonic`. |
| Rows.DecayMonotonic | api/routes/posts.js:102 | Of two posts with the same score ratio, the older has strictly lower decayed strength. |
| Rows.BetaChannelDisabled | api/routes/posts.js:160-165 | No pid of the beta-announcements channel starts with an enabled announcement prefix. |
| Feed.Candidates | api/routes/posts.js:39-49 | The WHERE stage keeps exactly the rows satisfying the predicate, each projected with its `main_url` and strength. |
| Feed.UrlsInOrder | api/routes/posts.js:52 | The groups of `GROUP BY main_url` are exactly the distinct `main_url` values, each once. |
| Feed.GroupOf | api/routes/posts.js:52 | A `main_url` group holds exactly the candidates that carry that `main_url`. |
| Feed.Representatives | api/routes/posts.js:52 | There is one representative per group, in the order of the groups, and each carries its group's `main_url`. |
| Feed.Descending | api/routes/posts.js:51 | Definition: `ORDER BY key DESC` as a comparator, with NULL lowest. Its properties are in `Feed.DescendingConsistent`. |
| Feed.MaxOver | api/routes/posts.js:102 | `MAX` over a group is at least every member's value and equals one of them. It is NULL for an empty group. |
| Feed.Represent | api/routes/posts.js:116 | A group's reported row is one of its members. Under `MAX` it carries the group's maximum strength. |
| Feed.Page | api/routes/posts.js:29-54 | OFFSET/LIMIT returns the elements from `offset` on, in order, and at most `limit` of them. |
| Feed.OrderedFacts | api/routes/posts.js:51-52 | After grouping and ordering, each row passed WHERE and carries its own `main_url`. No `main_url` repeats, and rows are in descending order with NULL last. |
| Feed.RunFacts | api/routes/posts.js:51-54 | The same guarantees hold after OFFSET/LIMIT, and the limit is respected. |
| Feed.Run | api/routes/posts.js:29-54 | Definition: WHERE, group by `main_url`, order, then the window. Its properties are in `Feed.RunFacts`, `Feed.RunIsWindow`, `Feed.RunUrls` and `Feed.RunCount`. |
| Feed.RunRows | api/routes/posts.js:41-52 | Every result row passed WHERE and carries its own `main_url`. |
| Feed.RunOrder | api/routes/posts.js:51 | The result is in descending ORDER BY order. |
| Feed.RunStrength | api/routes/posts.js:102 | The strength column is absent, the row's own value, or the maximum over the row's qualifying `main_url` group, attained by one of its rows. |
| Feed.CandidatesCover | api/routes/posts.js:52 | Every qualifying row's `main_url` is one of the group keys. |
| Feed.SortKeepsUrls | api/routes/posts.js:51 | Ordering keeps every representative's `main_url`. |
| Feed.OrderedComplete | api/routes/posts.js:51-52 | After grouping and ordering, every qualifying row's `main_url` is represented. |
| Feed.RunComplete | api/routes/posts.js:168 | With no offset and no limit, every qualifying row's `main_url` is represented. |
| Feed.RunIsWindow | api/routes/posts.js:29-54 | A query with OFFSET/LIMIT returns exactly a window of the unlimited result, of the stated length. |
| Feed.RunUrls | api/routes/posts.js:52 | With no offset and no limit, the result carries exactly the `main_url`s of the rows that pass the WHERE clause, no more and no fewer. |
| Feed.DistinctUrlsCount | api/routes/posts.js:52 | A result with pairwise distinct `main_url`s has as many rows as distinct `main_url`s. |
| Feed.RunCount | api/routes/posts.js:29-54 | The result length is the number of distinct qualifying `main_url`s, cut to the OFFSET/LIMIT window. |
| Feed.DescendingConsistent | api/routes/posts.js:51 | `ORDER BY ... DESC` is a consistent total preorder, with NULL lowest. |
| Sorting.Sort | api/routes/posts.js:21 | Sorting keeps the length and the multiset of elements. |
| Sorting.SortSorted | api/routes/posts.js:51 | With a consistent comparator, no element follows one that should come after it. |
| Sorting.InsertSorted | api/routes/posts.js:51 | Inserting into an ordered sequence keeps it ordered. |
| Sorting.SortAllEqualIsIdentity | api/routes/posts.js:21 | When every comparison is 0, the stable sort returns its input unchanged. |
| Sorting.SortDistinct | api/routes/posts.js:52 | Sorting never makes two distinct keys collide. |
| Enrichment.PostTags | api/routes/posts.js:57-62 | A post's tags are exactly the `post_tags` rows with its id. |
| Enrichment.FetchTags | api/routes/posts.js:58 | The batched `whereIn` lookup returns a table row exactly when its `post_id` is one of the listed posts' ids. |
| Enrichment.GroupByPostId | api/routes/posts.js:59 | Grouping by `post_id` maps each id present to that post's rows. |
| Enrichment.Enrich | api/routes/posts.js:60-63 | Enrichment keeps every post, in order, neither adding nor dropping any. |
| Enrichment.FetchThenSelect | api/routes/posts.js:58-61 | Selecting one post's rows from the batched `whereIn` fetch equals selecting them from the whole table. |
| Enrichment.NoRowsNoTags | api/routes/posts.js:61 | A post with no `post_tags` rows gets the empty list. |
| Enrichment.EnrichAttachesOwnTags | api/routes/posts.js:57-63 | Each post's `tags` are exactly its own `post_tags` rows, or the empty list when it has none. |

## Left out

- Express routing, the response objects and the `logger` call. A response is an outcome datatype (`Ok`, `ClientError`, `ServerError`) plus the new cache and a trace of cache and storage effects.
- knex and MySQL execution. A query is a WHERE predicate, a strength column, an ORDER BY key and an OFFSET/LIMIT window over the joined rows.
- `UNIX_TIMESTAMP()` is the parameter `now`.
- `LOG10(score / score_avg)` is computed in floating point and is the parameter `logScore`. The decay term `(now - created_at) / 90000` is exact.
- Rows.DecayMonotonic: holds over exact reals. MySQL evaluates the decay division to 4 decimal places, so two posts created a few seconds apart can tie.
- `score / score_avg` is an exact real, while MySQL's decimal division rounds. Its NULL result for a zero `score_avg` is modelled.
- `parseInt` edge cases: NaN, negative values and `Math.min(NaN, 100)`. `offset`, `limit` and `age` are taken as natural numbers.
- JavaScript Numbers are doubles, but `offset`, `limit` and `age` are unbounded naturals here. `parseInt` rounds integers above 2^53 to a nearby double, and `age * 60 * 60` is a floating-point product.
- Strings.DecimalRoundTrip: holds for `NatToString`, which renders every natural as plain digits. JavaScript's `${age}` agrees with it only below 10^21. From 10^21 on it gives exponent form (`1e+21`), which does not read back as digits.
- Keys.TopKeysInjective: proved over naturals. In JavaScript two request ages above 2^53 can parse to the same double and so share a key, and ages from 10^21 on give exponent-form keys.
- Keys.AnnouncementsKeysInjective: the same limits as `Keys.TopKeysInjective`.
- Numeric tags: the comparison of two numeric tags is floating point and is the parameter `numberOrder`. For a mix of numeric and non-numeric tags the comparator is inconsistent and the resulting order is implementation-defined. The key properties are stated for non-numeric tags only.
- Collation: the model compares strings exactly. MySQL compares them under the column's collation, and its default collations (`utf8mb4_0900_ai_ci` in MySQL 8, `utf8mb4_general_ci` and `utf8mb4_unicode_ci` before) ignore case and accents. The older `_general_ci` and `_unicode_ci` collations are also PAD SPACE, which ignores trailing spaces; `utf8mb4_0900_ai_ci` is NO PAD. The exact comparisons are in five places:
  - the `LIKE` prefix tests on `pid`;
  - `main_url` equality in `GROUP BY`;
  - the `post_tags.tag IN (...)` match of `/tags` (`Routes.Tagged`, `Routes.TaggedRows`). So `Routes.TagsCount` does not count a post whose stored tag differs from a requested one only in case or accents, although MySQL would return it;
  - `NOT text = ''` in `Rows.HasText`. Under a PAD SPACE collation MySQL also drops a post whose `text` is only spaces, and the model keeps it;
  - `content_url = ""` in the `main_url` CASE (`Rows.MainUrl`). Under a PAD SPACE collation MySQL falls back to `url` for a `content_url` of only spaces, and the model keeps the spaces.
- NULL `pid`, `url`, `score`, `score_avg` and `created_at` values are not modelled: these columns are numbers or strings here. `content_url` and `text` are nullable.
- The queries select `posts.*` with `GROUP BY main_url`. This assumes the server runs without `ONLY_FULL_GROUP_BY`. That mode is in MySQL's default `sql_mode` from 5.7.5 on, and under it each query fails with error 1055. Every miss then answers 500, which the model covers only as a `postsFault`.
- MySQL may take each non-aggregated column of a group from a different row. The model takes the whole representative from one member.
- Rows are scanned in the order of the `sources` × `posts` join as given. MySQL's scan order is open.
- ORDER BY ties keep first-appearance order in that scan. MySQL leaves the order of ties open.
- The tag lookup returns rows in table order, with no ORDER BY in the source.
- `groupBy` from `common` is not part of this model. It is taken to map each `post_id` to that post's rows in order.
- Concurrent misses for one key, and which writer's list the cache keeps, are not modelled. Entry expiry is not modelled either.
- Query-string objects (`tag[x]=…`) are not modelled. The tag parameter is missing, one string, or a list of strings.

=== FILE: cache_gate.dfy ===
/** The cache in front of every feed route: a map from cache key to the
    exact list of posts last computed for it. A hit answers from the map;
    a miss runs the pipeline and stores its result before answering; a
    failed pipeline stores nothing. Entries never expire or change. */
module CacheGate {
  import opened Wrappers
  import opened Enrichment

  type Cache = map<string, seq<Post>>

  /** The two storage calls a pipeline makes: the feed query, then the
      `post_tags` lookup. */
  datatype StorageCall = PostsQuery | TagsQuery

  /** Observable interactions with the cache and storage, in order. */
  datatype Effect = CacheGet(key: string) | Storage(call: StorageCall) | CacheSet(key: string)

  /** What the caller receives: the posts (status 200), or an error body
      with its HTTP status. */
  datatype Outcome =
    | Ok(posts: seq<Post>)
    | ClientError(status: nat, message: string)
    | ServerError(status: nat, message: string)

  /** The result of running a route's pipeline, with the storage calls made. */
  datatype Computation = Computation(result: Result<seq<Post>>, calls: seq<StorageCall>)

  function AsEffects(calls: seq<StorageCall>): (e: seq<Effect>)
    ensures |e| == |calls|
    ensures forall i :: 0 <= i < |e| ==> e[i] == Storage(calls[i])
  {
    seq(|calls|, i requires 0 <= i < |calls| => Storage(calls[i]))
  }

  datatype Response = Response(outcome: Outcome, cache: Cache, effects: seq<Effect>)

  const InternalError: nat := 500

  function Gate(cache: Cache, key: string, run: Computation): (r: Response)
    // a hit answers with the stored list and touches nothing else
    ensures key in cache ==> r == Response(Ok(cache[key]), cache, [CacheGet(key)])
    // a miss answers with the pipeline's result or its error
    ensures key !in cache && run.result.Success? ==> r.outcome == Ok(run.result.value)
    ensures key !in cache && run.result.Failure? ==> r.outcome == ServerError(InternalError, run.result.error)
    // whatever is answered with a list is what the cache now holds for the key
    ensures r.outcome.Ok? ==> key in r.cache && r.cache[key] == r.outcome.posts
    // stored entries are never changed, and only the key itself can be added
    ensures forall k :: k in cache ==> k in r.cache && r.cache[k] == cache[k]
    ensures r.cache.Keys <= cache.Keys + {key}
    // a failure leaves the cache as it was
    ensures !r.outcome.Ok? ==> r.cache == cache
    // storage is consulted exactly on a miss
    ensures |r.effects| > 0 && r.effects[0] == CacheGet(key)
    ensures key !in cache ==> |r.effects| > |run.calls| && r.effects[1..|run.calls| + 1] == AsEffects(run.calls)
    ensures CacheSet(key) in r.effects <==> key !in cache && run.result.Success?
    // a miss is one lookup, the pipeline's storage calls once, then one store if it succeeded
    ensures key !in cache ==>
      r.effects == [CacheGet(key)] + AsEffects(run.calls) + (if run.result.Success? then [CacheSet(key)] else [])
  {
    if key in cache then Response(Ok(cache[key]), cache, [CacheGet(key)])
    else
      match run.result
      case Failure(e) => Response(ServerError(InternalError, e), cache, [CacheGet(key)] + AsEffects(run.calls))
      case Success(posts) =>
        Response(Ok(posts), cache[key := posts], [CacheGet(key)] + AsEffects(run.calls) + [CacheSet(key)])
  }

  /** Asking again for a key that was just answered with a list returns the
      same list, leaves the cache alone and runs no pipeline, whatever that
      pipeline would now compute. */
  lemma GateRepeat(cache: Cache, key: string, first: Computation, second: Computation)
    ensures var r1 := Gate(cache, key, first);
      r1.outcome.Ok? ==> Gate(r1.cache, key, second) == Response(r1.outcome, r1.cache, [CacheGet(key)])
  {
  }
}

=== FILE: enrichment.dfy ===
/** The post→tags join every feed route performs after its query: one
    batched lookup of `post_tags` for all selected ids, grouped by
    `post_id`, and a `tags` field attached to each post (an empty list when
    it has none). */
module Enrichment {
  import opened Rows
  import opened Feed

  /** A feed result as sent to the caller: the selected row plus its tags. */
  datatype Post = Post(selected: Selected, tags: seq<TagRow>)

  /** The reference meaning of a post's tags: the `post_tags` rows whose
      `post_id` is the post's id, in table order. */
  function PostTags(table: seq<TagRow>, id: nat): (ts: seq<TagRow>)
    ensures forall t :: t in ts <==> t in table && t.postId == id
    ensures |ts| <= |table|
  {
    if |table| == 0 then []
    else
      assert forall t :: t in table ==> t == table[0] || t in table[1..];
      (if table[0].postId == id then [table[0]] else []) + PostTags(table[1..], id)
  }

  function IdsOf(posts: seq<Selected>): set<nat> {
    set i | 0 <= i < |posts| :: posts[i].row.post.id
  }

  /** `db('post_tags').whereIn('post_id', postIds)`, in table order. */
  function FetchTags(table: seq<TagRow>, ids: set<nat>): (rows: seq<TagRow>)
    ensures forall t :: t in rows <==> t in table && t.postId in ids
  {
    if |table| == 0 then []
    else
      assert forall t :: t in table ==> t == table[0] || t in table[1..];
      (if table[0].postId in ids then [table[0]] else []) + FetchTags(table[1..], ids)
  }

  /** `groupBy(tags, 'post_id')`. The helper lives outside this model; it
      is taken to map each `post_id` present to that post's rows, in order. */
  function GroupByPostId(rows: seq<TagRow>): (m: map<nat, seq<TagRow>>)
    ensures forall t :: t in rows ==> t.postId in m
    ensures forall id :: id in m ==> m[id] == PostTags(rows, id)
  {
    map id | id in (set t | t in rows :: t.postId) :: PostTags(rows, id)
  }

  /** `tagsByPostId[post.id] || []`. */
  function TagsFor(byId: map<nat, seq<TagRow>>, id: nat): seq<TagRow> {
    if id in byId then byId[id] else []
  }

  /** Attaches tags to each selected post, keeping the posts and their order. */
  function Enrich(posts: seq<Selected>, table: seq<TagRow>): (r: seq<Post>)
    ensures |r| == |posts|
    ensures forall i :: 0 <= i < |r| ==> r[i].selected == posts[i]
  {
    var byId := GroupByPostId(FetchTags(table, IdsOf(posts)));
    seq(|posts|, i requires 0 <= i < |posts| => Post(posts[i], TagsFor(byId, posts[i].row.post.id)))
  }

  /** Selecting one post's rows from the batched fetch gives the same rows
      as selecting them from the whole table. */
  lemma {:induction false} FetchThenSelect(table: seq<TagRow>, ids: set<nat>, id: nat)
    requires id in ids
    ensures PostTags(FetchTags(table, ids), id) == PostTags(table, id)
  {
    if |table| > 0 {
      var rest := table[1..];
      FetchThenSelect(rest, ids, id);
      var f := FetchTags(table, ids);
      if table[0].postId in ids {
        assert f == [table[0]] + FetchTags(rest, ids);
        assert f[1..] == FetchTags(rest, ids);
        assert PostTags(f, id) == (if table[0].postId == id then [table[0]] else []) + PostTags(f[1..], id);
      } else {
        assert f == FetchTags(rest, ids);
        assert PostTags(table, id) == PostTags(rest, id);
      }
    }
  }

  /** The batched join attaches to each post exactly the rows the
      per-post lookup would: its own `post_tags` rows, or none. */
  lemma EnrichAttachesOwnTags(posts: seq<Selected>, table: seq<TagRow>)
    ensures var r := Enrich(posts, table);
      forall i :: 0 <= i < |r| ==> r[i].tags == PostTags(table, posts[i].row.post.id)
  {
    var ids := IdsOf(posts);
    var fetched := FetchTags(table, ids);
    var byId := GroupByPostId(fetched);
    var r := Enrich(posts, table);
    forall i | 0 <= i < |r|
      ensures r[i].tags == PostTags(table, posts[i].row.post.id)
    {
      var id := posts[i].row.post.id;
      assert id in ids;
      FetchThenSelect(table, ids, id);
      assert r[i] == Post(posts[i], TagsFor(byId, id));
      if id !in byId {
        NoRowsNoTags(fetched, id);
      }
    }
  }

  /** A post with no `post_tags` rows gets the empty list. */
  lemma NoRowsNoTags(rows: seq<TagRow>, id: nat)
    requires forall t :: t in rows ==> t.postId != id
    ensures PostTags(rows, id) == []
  {
  }
}

=== FILE: feed.dfy ===
/** The engine behind every feed route: a query is a WHERE predicate over
    joined rows, a strength column, an ORDER BY key and an OFFSET/LIMIT
    window, evaluated with MySQL's `GROUP BY main_url` semantics. Which row
    of a group supplies the non-aggregated columns is left to the engine;
    the model receives that choice as `pick`, so every property below holds
    whatever the engine chooses. */
module Feed {
  import opened Wrappers
  import opened Rows
  import opened Sorting

  /** One result row of a feed query, before tag enrichment. `strength` is
      `None` when the query selects no strength column. */
  datatype Selected = Selected(row: Row, mainUrl: Option<string>, strength: Option<Rank>)

  /** How the `strength` column is computed: not at all, from the row
      itself, or as `MAX(...)` over the row's `main_url` group. */
  datatype StrengthColumn = NoStrength | PerRow(f: Row -> Rank) | GroupMax(f: Row -> Rank)

  datatype OrderKey = ByStrength | ByCreatedAt

  datatype Query = Query(
    where: Row -> bool,
    strength: StrengthColumn,
    orderBy: OrderKey,
    offset: nat,
    limit: Option<nat>)

  /** The engine's choice of a group's representative, as an index
      (taken modulo the group's size). */
  type Pick = seq<Selected> -> nat

  function Project(col: StrengthColumn, r: Row): Selected {
    Selected(r, MainUrl(r.post),
      match col
      case NoStrength => None
      case PerRow(f) => Some(f(r))
      case GroupMax(f) => Some(f(r)))
  }

  /** The rows that pass the WHERE clause, projected, in storage order. */
  function Candidates(where: Row -> bool, col: StrengthColumn, rows: seq<Row>): (c: seq<Selected>)
    ensures forall i :: 0 <= i < |c| ==> c[i].row in rows && where(c[i].row) && c[i] == Project(col, c[i].row)
    ensures forall r :: r in rows && where(r) ==> Project(col, r) in c
  {
    if |rows| == 0 then []
    else
      assert forall r :: r in rows ==> r == rows[0] || r in rows[1..];
      (if where(rows[0]) then [Project(col, rows[0])] else []) + Candidates(where, col, rows[1..])
  }

  /** The distinct `main_url` values of `c`, in order of first appearance. */
  function UrlsInOrder(c: seq<Selected>): (ks: seq<Option<string>>)
    ensures forall k :: k in ks <==> exists i :: 0 <= i < |c| && c[i].mainUrl == k
    ensures forall i, j :: 0 <= i < j < |ks| ==> ks[i] != ks[j]
  {
    if |c| == 0 then []
    else
      var init := c[..|c| - 1];
      var ks := UrlsInOrder(init);
      assert forall i :: 0 <= i < |init| ==> init[i] == c[i];
      if c[|c| - 1].mainUrl in ks then ks else ks + [c[|c| - 1].mainUrl]
  }

  /** The members of `c` whose `main_url` is `k`. */
  function GroupOf(c: seq<Selected>, k: Option<string>): (g: seq<Selected>)
    ensures forall x :: x in g <==> x in c && x.mainUrl == k
  {
    if |c| == 0 then []
    else
      assert forall x :: x in c ==> x == c[0] || x in c[1..];
      (if c[0].mainUrl == k then [c[0]] else []) + GroupOf(c[1..], k)
  }

  /** `MAX(f(row))` over a group: an upper bound attained by some member. */
  function MaxOver(g: seq<Selected>, f: Row -> Rank): (m: Rank)
    ensures forall i :: 0 <= i < |g| ==> RankLe(f(g[i].row), m)
    ensures |g| > 0 ==> exists i :: 0 <= i < |g| && m == f(g[i].row)
    ensures |g| == 0 ==> m == Null
  {
    if |g| == 0 then Null
    else
      var rest := MaxOver(g[1..], f);
      assert forall i :: 1 <= i < |g| ==> g[i] == g[1..][i - 1];
      if RankLt(f(g[0].row), rest) then rest else f(g[0].row)
  }

  /** The row the engine reports for a group: some member, with the
      aggregate strength when the column is a group maximum. */
  function Represent(col: StrengthColumn, g: seq<Selected>, pick: Pick): (s: Selected)
    requires |g| > 0
    ensures exists i :: 0 <= i < |g| && s.row == g[i].row && s.mainUrl == g[i].mainUrl
    ensures !col.GroupMax? ==> s in g
    ensures col.GroupMax? ==> s.strength == Some(MaxOver(g, col.f))
  {
    var m := g[pick(g) % |g|];
    if col.GroupMax? then m.(strength := Some(MaxOver(g, col.f))) else m
  }

  /** One representative per distinct `main_url`, in first-appearance order. */
  function Representatives(col: StrengthColumn, c: seq<Selected>, pick: Pick): (reps: seq<Selected>)
    ensures |reps| == |UrlsInOrder(c)|
    ensures forall i :: 0 <= i < |reps| ==> reps[i].mainUrl == UrlsInOrder(c)[i]
  {
    var ks := UrlsInOrder(c);
    seq(|ks|, i requires 0 <= i < |ks| =>
      assert ks[i] in ks;
      var j :| 0 <= j < |c| && c[j].mainUrl == ks[i];
      assert c[j] in GroupOf(c, ks[i]);
      Represent(col, GroupOf(c, ks[i]), pick))
  }

  /** The value ORDER BY sorts on; a missing strength sorts as NULL. */
  function OrderValue(key: OrderKey, s: Selected): Rank {
    match key
    case ByStrength => (match s.strength case Some(x) => x case None => Null)
    case ByCreatedAt => Val(s.row.post.createdAt as real)
  }

  /** `ORDER BY key DESC` as a comparator. */
  function Descending(key: OrderKey): (Selected, Selected) -> int {
    (a: Selected, b: Selected) =>
      if RankLt(OrderValue(key, b), OrderValue(key, a)) then -1
      else if RankLt(OrderValue(key, a), OrderValue(key, b)) then 1
      else 0
  }

  /** `ORDER BY ... DESC` orders consistently: NULL last, ties equal. */
  lemma DescendingConsistent(key: OrderKey)
    ensures Consistent(Descending(key))
  {
  }

  /** `OFFSET offset LIMIT limit`: the page holds the elements from
      `offset` on, at most `limit` of them. */
  function Page<T>(s: seq<T>, offset: nat, limit: Option<nat>): (r: seq<T>)
    ensures limit.Some? ==> |r| <= limit.value
    ensures offset <= |s| && limit.Some? ==> |r| == (if |s| - offset < limit.value then |s| - offset else limit.value)
    ensures offset <= |s| && limit.None? ==> |r| == |s| - offset
    ensures offset > |s| ==> r == []
    ensures forall i :: 0 <= i < |r| ==> offset + i < |s| && r[i] == s[offset + i]
  {
    if offset >= |s| then []
    else
      var rest := s[offset..];
      match limit
      case None => rest
      case Some(n) => if n < |rest| then rest[..n] else rest
  }

  function UrlOf(s: Selected): Option<string> {
    s.mainUrl
  }

  /** The whole deduplicated result in ORDER BY order, before the window. */
  function Ordered(where: Row -> bool, col: StrengthColumn, key: OrderKey, rows: seq<Row>, pick: Pick): seq<Selected> {
    Sort(Representatives(col, Candidates(where, col, rows), pick), Descending(key))
  }

  /** The query's result: group, order, then window. */
  function Run(q: Query, rows: seq<Row>, pick: Pick): seq<Selected> {
    Page(Ordered(q.where, q.strength, q.orderBy, rows, pick), q.offset, q.limit)
  }

  /** Before the window: every result row passed the WHERE clause and
      carries its own `main_url`, no `main_url` occurs twice, and the rows
      are in descending ORDER BY order. */
  lemma OrderedFacts(where: Row -> bool, col: StrengthColumn, key: OrderKey, rows: seq<Row>, pick: Pick)
    ensures var s := Ordered(where, col, key, rows, pick);
      && (forall i :: 0 <= i < |s| ==>
            && s[i].row in rows
            && where(s[i].row)
            && s[i].mainUrl == MainUrl(s[i].row.post))
      && (forall i, j :: 0 <= i < j < |s| ==> s[i].mainUrl != s[j].mainUrl)
      && (forall i, j :: 0 <= i < j < |s| ==> RankLe(OrderValue(key, s[j]), OrderValue(key, s[i])))
  {
    var reps := Representatives(col, Candidates(where, col, rows), pick);
    assert Ordered(where, col, key, rows, pick) == Sort(reps, Descending(key));
    RepresentativesFromRows(where, col, rows, pick);
    SortKeepsUrlsDistinct(reps, key);
    SortOrdersByKey(reps, key);
    SortKeepsRows(where, rows, reps, Descending(key));
  }

  /** The same guarantees after OFFSET/LIMIT, and the LIMIT is respected. */
  lemma RunFacts(q: Query, rows: seq<Row>, pick: Pick)
    ensures var r := Run(q, rows, pick);
      && (forall i :: 0 <= i < |r| ==>
            && r[i].row in rows
            && q.where(r[i].row)
            && r[i].mainUrl == MainUrl(r[i].row.post))
      && (forall i, j :: 0 <= i < j < |r| ==> r[i].mainUrl != r[j].mainUrl)
      && (forall i, j :: 0 <= i < j < |r| ==> RankLe(OrderValue(q.orderBy, r[j]), OrderValue(q.orderBy, r[i])))
      && (q.limit.Some? ==> |r| <= q.limit.value)
  {
    var s := Ordered(q.where, q.strength, q.orderBy, rows, pick);
    OrderedFacts(q.where, q.strength, q.orderBy, rows, pick);
    WindowFacts(s, q, rows);
    assert Run(q, rows, pick) == Page(s, q.offset, q.limit);
  }

  /** Every result row passed the WHERE clause and carries its own `main_url`. */
  lemma RunRows(q: Query, rows: seq<Row>, pick: Pick)
    ensures var r := Run(q, rows, pick);
      forall i :: 0 <= i < |r| ==> r[i].row in rows && q.where(r[i].row) && r[i].mainUrl == MainUrl(r[i].row.post)
  {
    RunFacts(q, rows, pick);
  }

  /** The result is in descending ORDER BY order. */
  lemma RunOrder(q: Query, rows: seq<Row>, pick: Pick)
    ensures var r := Run(q, rows, pick);
      forall i, j :: 0 <= i < j < |r| ==> RankLe(OrderValue(q.orderBy, r[j]), OrderValue(q.orderBy, r[i]))
  {
    RunFacts(q, rows, pick);
  }

  lemma WindowFacts(s: seq<Selected>, q: Query, rows: seq<Row>)
    requires forall i :: 0 <= i < |s| ==>
      && s[i].row in rows
      && q.where(s[i].row)
      && s[i].mainUrl == MainUrl(s[i].row.post)
    requires forall i, j :: 0 <= i < j < |s| ==> s[i].mainUrl != s[j].mainUrl
    requires forall i, j :: 0 <= i < j < |s| ==> RankLe(OrderValue(q.orderBy, s[j]), OrderValue(q.orderBy, s[i]))
    ensures var r := Page(s, q.offset, q.limit);
      && (forall i :: 0 <= i < |r| ==>
            && r[i].row in rows
            && q.where(r[i].row)
            && r[i].mainUrl == MainUrl(r[i].row.post))
      && (forall i, j :: 0 <= i < j < |r| ==> r[i].mainUrl != r[j].mainUrl)
      && (forall i, j :: 0 <= i < j < |r| ==> RankLe(OrderValue(q.orderBy, r[j]), OrderValue(q.orderBy, r[i])))
  {
    var r := Page(s, q.offset, q.limit);
    forall i, j | 0 <= i < j < |r|
      ensures r[i].mainUrl != r[j].mainUrl
      ensures RankLe(OrderValue(q.orderBy, r[j]), OrderValue(q.orderBy, r[i]))
    {
      assert r[i] == s[q.offset + i] && r[j] == s[q.offset + j];
    }
  }

  /** Every representative is a projected candidate row with its own
      `main_url`, and no two share one. */
  lemma RepresentativesFromRows(where: Row -> bool, col: StrengthColumn, rows: seq<Row>, pick: Pick)
    ensures var reps := Representatives(col, Candidates(where, col, rows), pick);
      && DistinctBy(reps, UrlOf)
      && forall i :: 0 <= i < |reps| ==>
           && reps[i].row in rows
           && where(reps[i].row)
           && reps[i].mainUrl == MainUrl(reps[i].row.post)
  {
    var c := Candidates(where, col, rows);
    var reps := Representatives(col, c, pick);
    var ks := UrlsInOrder(c);
    forall i | 0 <= i < |reps|
      ensures reps[i].row in rows && where(reps[i].row) && reps[i].mainUrl == MainUrl(reps[i].row.post)
    {
      var g := GroupOf(c, ks[i]);
      var k :| 0 <= k < |g| && reps[i].row == g[k].row && reps[i].mainUrl == g[k].mainUrl;
      assert g[k] in c;
    }
  }

  lemma SortKeepsUrlsDistinct(reps: seq<Selected>, key: OrderKey)
    requires DistinctBy(reps, UrlOf)
    ensures var s := Sort(reps, Descending(key));
      forall i, j :: 0 <= i < j < |s| ==> s[i].mainUrl != s[j].mainUrl
  {
    SortDistinct(reps, Descending(key), UrlOf);
    var s := Sort(reps, Descending(key));
    forall i, j | 0 <= i < j < |s|
      ensures s[i].mainUrl != s[j].mainUrl
    {
      assert UrlOf(s[i]) != UrlOf(s[j]);
    }
  }

  lemma SortOrdersByKey(reps: seq<Selected>, key: OrderKey)
    ensures var s := Sort(reps, Descending(key));
      forall i, j :: 0 <= i < j < |s| ==> RankLe(OrderValue(key, s[j]), OrderValue(key, s[i]))
  {
    DescendingConsistent(key);
    SortSorted(reps, Descending(key));
    var s := Sort(reps, Descending(key));
    forall i, j | 0 <= i < j < |s|
      ensures RankLe(OrderValue(key, s[j]), OrderValue(key, s[i]))
    {
      assert Descending(key)(s[i], s[j]) <= 0;
    }
  }

  lemma SortKeepsRows(where: Row -> bool, rows: seq<Row>, reps: seq<Selected>, cmp: (Selected, Selected) -> int)
    requires forall i :: 0 <= i < |reps| ==>
      reps[i].row in rows && where(reps[i].row) && reps[i].mainUrl == MainUrl(reps[i].row.post)
    ensures var s := Sort(reps, cmp);
      forall i :: 0 <= i < |s| ==>
        s[i].row in rows && where(s[i].row) && s[i].mainUrl == MainUrl(s[i].row.post)
  {
    var s := Sort(reps, cmp);
    forall i | 0 <= i < |s|
      ensures s[i].row in rows && where(s[i].row) && s[i].mainUrl == MainUrl(s[i].row.post)
    {
      assert s[i] in multiset(s);
      assert s[i] in multiset(reps);
      var k :| 0 <= k < |reps| && reps[k] == s[i];
    }
  }

  /** What the strength column of a result row holds: nothing, the row's
      own strength, or the maximum over every candidate sharing its
      `main_url` (attained by one of them). */
  ghost predicate StrengthAgrees(col: StrengthColumn, where: Row -> bool, rows: seq<Row>, x: Selected) {
    match col
    case NoStrength => x.strength == None
    case PerRow(f) => x.strength == Some(f(x.row))
    case GroupMax(f) => x.strength.Some? && IsGroupMax(f, where, rows, x.mainUrl, x.strength.value)
  }

  /** `m` is `MAX(f)` over the rows that pass `where` and have `main_url` `k`. */
  ghost predicate IsGroupMax(f: Row -> Rank, where: Row -> bool, rows: seq<Row>, k: Option<string>, m: Rank) {
    && (forall y :: y in rows && where(y) && MainUrl(y.post) == k ==> RankLe(f(y), m))
    && (exists y :: y in rows && where(y) && MainUrl(y.post) == k && m == f(y))
  }

  lemma RepresentativeStrength(where: Row -> bool, col: StrengthColumn, rows: seq<Row>, pick: Pick)
    ensures var reps := Representatives(col, Candidates(where, col, rows), pick);
      forall i :: 0 <= i < |reps| ==> StrengthAgrees(col, where, rows, reps[i])
  {
    var c := Candidates(where, col, rows);
    var reps := Representatives(col, c, pick);
    var ks := UrlsInOrder(c);
    forall i | 0 <= i < |reps|
      ensures StrengthAgrees(col, where, rows, reps[i])
    {
      var g := GroupOf(c, ks[i]);
      assert reps[i] == Represent(col, g, pick);
      if col.GroupMax? {
        var m := MaxOver(g, col.f);
        forall y | y in rows && where(y) && MainUrl(y.post) == reps[i].mainUrl
          ensures RankLe(col.f(y), m)
        {
          assert Project(col, y) in g;
          var k :| 0 <= k < |g| && g[k] == Project(col, y);
        }
        var k :| 0 <= k < |g| && m == col.f(g[k].row);
        assert g[k] in c;
        var y := g[k].row;
        assert y in rows && where(y) && MainUrl(y.post) == reps[i].mainUrl;
      }
    }
  }

  lemma OrderedStrength(where: Row -> bool, col: StrengthColumn, key: OrderKey, rows: seq<Row>, pick: Pick)
    ensures var s := Ordered(where, col, key, rows, pick);
      forall i :: 0 <= i < |s| ==> StrengthAgrees(col, where, rows, s[i])
  {
    var reps := Representatives(col, Candidates(where, col, rows), pick);
    var p := (x: Selected) => StrengthAgrees(col, where, rows, x);
    RepresentativeStrength(where, col, rows, pick);
    SortKeepsAll(reps, Descending(key), p);
    assert Ordered(where, col, key, rows, pick) == Sort(reps, Descending(key));
  }

  /** A property of every element survives OFFSET/LIMIT. */
  lemma PageKeepsAll<T>(s: seq<T>, offset: nat, limit: Option<nat>, p: T -> bool)
    requires forall i :: 0 <= i < |s| ==> p(s[i])
    ensures var r := Page(s, offset, limit); forall i :: 0 <= i < |r| ==> p(r[i])
  {
    var r := Page(s, offset, limit);
    forall i | 0 <= i < |r|
      ensures p(r[i])
    {
      assert r[i] == s[offset + i];
    }
  }

  /** The strength column of every result row means what the query says. */
  lemma RunStrength(q: Query, rows: seq<Row>, pick: Pick)
    ensures var r := Run(q, rows, pick);
      forall i :: 0 <= i < |r| ==> StrengthAgrees(q.strength, q.where, rows, r[i])
  {
    var s := Ordered(q.where, q.strength, q.orderBy, rows, pick);
    OrderedStrength(q.where, q.strength, q.orderBy, rows, pick);
    PageKeepsAll(s, q.offset, q.limit, (x: Selected) => StrengthAgrees(q.strength, q.where, rows, x));
    assert Run(q, rows, pick) == Page(s, q.offset, q.limit);
  }

  /** Grouping loses no `main_url`: each qualifying row's is a group key. */
  lemma CandidatesCover(where: Row -> bool, col: StrengthColumn, rows: seq<Row>)
    ensures var ks := UrlsInOrder(Candidates(where, col, rows));
      forall y :: y in rows && where(y) ==> MainUrl(y.post) in ks
  {
    var c := Candidates(where, col, rows);
    forall y | y in rows && where(y)
      ensures MainUrl(y.post) in UrlsInOrder(c)
    {
      var x := Project(col, y);
      assert x in c;
      var j :| 0 <= j < |c| && c[j] == x;
      assert c[j].mainUrl == MainUrl(y.post);
    }
  }

  /** Sorting loses no `main_url` either. */
  lemma SortKeepsUrls(reps: seq<Selected>, cmp: (Selected, Selected) -> int, m: nat)
    requires m < |reps|
    ensures exists i :: 0 <= i < |Sort(reps, cmp)| && Sort(reps, cmp)[i].mainUrl == reps[m].mainUrl
  {
    var s := Sort(reps, cmp);
    SortKeepsEach(reps, cmp, m);
    var i :| 0 <= i < |s| && s[i] == reps[m];
    assert s[i].mainUrl == reps[m].mainUrl;
  }

  /** Grouping and ordering lose nothing: every `main_url` among the rows
      that pass the WHERE clause is represented. */
  lemma OrderedComplete(where: Row -> bool, col: StrengthColumn, key: OrderKey, rows: seq<Row>, pick: Pick)
    ensures var s := Ordered(where, col, key, rows, pick);
      forall y :: y in rows && where(y) ==> exists i :: 0 <= i < |s| && s[i].mainUrl == MainUrl(y.post)
  {
    var c := Candidates(where, col, rows);
    var ks := UrlsInOrder(c);
    var reps := Representatives(col, c, pick);
    var s := Ordered(where, col, key, rows, pick);
    assert s == Sort(reps, Descending(key));
    CandidatesCover(where, col, rows);
    forall y | y in rows && where(y)
      ensures exists i :: 0 <= i < |s| && s[i].mainUrl == MainUrl(y.post)
    {
      var m :| 0 <= m < |ks| && ks[m] == MainUrl(y.post);
      assert reps[m].mainUrl == ks[m];
      SortKeepsUrls(reps, Descending(key), m);
      var i :| 0 <= i < |s| && s[i].mainUrl == reps[m].mainUrl;
    }
  }

  /** Without a window nothing is lost: every `main_url` among the rows
      that pass the WHERE clause is represented in the result. */
  lemma RunComplete(q: Query, rows: seq<Row>, pick: Pick)
    requires q.offset == 0 && q.limit.None?
    ensures var r := Run(q, rows, pick);
      forall y :: y in rows && q.where(y) ==> exists i :: 0 <= i < |r| && r[i].mainUrl == MainUrl(y.post)
  {
    var s := Ordered(q.where, q.strength, q.orderBy, rows, pick);
    OrderedComplete(q.where, q.strength, q.orderBy, rows, pick);
    assert Run(q, rows, pick) == Page(s, 0, None) == s;
  }

  /** The distinct `main_url`s among the rows that pass the WHERE clause. */
  function QualifyingUrls(where: Row -> bool, rows: seq<Row>): set<Option<string>> {
    set y | y in rows && where(y) :: MainUrl(y.post)
  }

  /** The `main_url`s a result carries. */
  function UrlsOf(s: seq<Selected>): set<Option<string>> {
    set i | 0 <= i < |s| :: s[i].mainUrl
  }

  /** A result whose `main_url`s are pairwise distinct has as many rows as
      it has `main_url`s. */
  lemma {:induction false} DistinctUrlsCount(s: seq<Selected>)
    requires forall i, j :: 0 <= i < j < |s| ==> s[i].mainUrl != s[j].mainUrl
    ensures |UrlsOf(s)| == |s|
  {
    if |s| == 0 {
      assert UrlsOf(s) == {};
    } else {
      var init := s[..|s| - 1];
      DistinctUrlsCount(init);
      assert UrlsOf(s) == UrlsOf(init) + {s[|s| - 1].mainUrl};
      assert s[|s| - 1].mainUrl !in UrlsOf(init);
    }
  }

  /** How many rows OFFSET `offset` LIMIT `limit` leaves of `n`. */
  function WindowSize(n: nat, offset: nat, limit: Option<nat>): nat {
    if n <= offset then 0
    else match limit
      case None => n - offset
      case Some(l) => if n - offset < l then n - offset else l
  }

  /** No `main_url` occurs twice in the result. */
  lemma RunDistinct(q: Query, rows: seq<Row>, pick: Pick)
    ensures var r := Run(q, rows, pick);
      forall i, j :: 0 <= i < j < |r| ==> r[i].mainUrl != r[j].mainUrl
  {
    RunFacts(q, rows, pick);
  }

  /** Each result row's `main_url` is a qualifying one. */
  lemma ResultUrlQualifies(q: Query, rows: seq<Row>, pick: Pick)
    ensures var r := Run(q, rows, pick);
      forall i :: 0 <= i < |r| ==> r[i].mainUrl in QualifyingUrls(q.where, rows)
  {
    var r := Run(q, rows, pick);
    RunRows(q, rows, pick);
    forall i | 0 <= i < |r| ensures r[i].mainUrl in QualifyingUrls(q.where, rows) {
      var y := r[i].row;
      assert y in rows && q.where(y);
    }
  }

  /** Without a window each qualifying `main_url` is carried by the result. */
  lemma QualifyingUrlInResult(q: Query, rows: seq<Row>, pick: Pick, y: Row)
    requires q.offset == 0 && q.limit.None?
    requires y in rows && q.where(y)
    ensures MainUrl(y.post) in UrlsOf(Run(q, rows, pick))
  {
    var all := Run(q, rows, pick);
    RunComplete(q, rows, pick);
    var i :| 0 <= i < |all| && all[i].mainUrl == MainUrl(y.post);
  }

  /** Without a window the result carries exactly the qualifying `main_url`s. */
  lemma RunUrls(q: Query, rows: seq<Row>, pick: Pick)
    requires q.offset == 0 && q.limit.None?
    ensures UrlsOf(Run(q, rows, pick)) == QualifyingUrls(q.where, rows)
  {
    var all := Run(q, rows, pick);
    ResultUrlQualifies(q, rows, pick);
    forall u | u in UrlsOf(all) ensures u in QualifyingUrls(q.where, rows) {
      var i :| 0 <= i < |all| && all[i].mainUrl == u;
    }
    forall u | u in QualifyingUrls(q.where, rows) ensures u in UrlsOf(all) {
      var y :| y in rows && q.where(y) && MainUrl(y.post) == u;
      QualifyingUrlInResult(q, rows, pick, y);
    }
  }

  /** The result holds one row per qualifying `main_url`, cut to the
      OFFSET/LIMIT window. */
  lemma RunCount(q: Query, rows: seq<Row>, pick: Pick)
    ensures |Run(q, rows, pick)| == WindowSize(|QualifyingUrls(q.where, rows)|, q.offset, q.limit)
  {
    var qa := q.(offset := 0, limit := None);
    var all := Run(qa, rows, pick);
    RunUrls(qa, rows, pick);
    RunDistinct(qa, rows, pick);
    DistinctUrlsCount(all);
    assert |all| == |QualifyingUrls(q.where, rows)|;
    RunIsWindow(q, rows, pick);
  }

  /** OFFSET k LIMIT n yields exactly positions k .. k+n-1 of the whole
      ordered, deduplicated result. */
  lemma RunIsWindow(q: Query, rows: seq<Row>, pick: Pick)
    ensures var all := Run(q.(offset := 0, limit := None), rows, pick);
      var r := Run(q, rows, pick);
      && (forall i :: 0 <= i < |r| ==> q.offset + i < |all| && r[i] == all[q.offset + i])
      && (q.limit.None? ==> |r| == if q.offset <= |all| then |all| - q.offset else 0)
      && (q.limit.Some? && q.offset <= |all| ==> |r| == if |all| - q.offset < q.limit.value then |all| - q.offset else q.limit.value)
  {
    var s := Ordered(q.where, q.strength, q.orderBy, rows, pick);
    var all := Run(q.(offset := 0, limit := None), rows, pick);
    assert all == Page(s, 0, None);
    assert all == s;
    assert Run(q, rows, pick) == Page(s, q.offset, q.limit);
  }
}

=== FILE: js_number.dfy ===
/** When JavaScript reads a string as a number. `a - b` on two strings
    converts both with ToNumber; the result is NaN exactly when one of them
    is not a StringNumericLiteral (ECMA-262, section 7.1.4.1.1,
    StringToNumber, and the grammar of section 7.1.4.1). Only the
    NaN-or-not question is modelled; numeric values are not. */
module JsNumber {
  import opened Strings

  /** StrWhiteSpaceChar: WhiteSpace or LineTerminator code points. */
  predicate IsStrWhiteSpaceChar(c: char) {
    var n := c as int;
    n == 0x09 || n == 0x0B || n == 0x0C || n == 0x20 || n == 0xA0 || n == 0xFEFF
    || n == 0x1680 || (0x2000 <= n <= 0x200A) || n == 0x202F || n == 0x205F || n == 0x3000
    || n == 0x0A || n == 0x0D || n == 0x2028 || n == 0x2029
  }

  function TrimStart(s: string): (t: string)
    ensures |t| <= |s|
    ensures |t| > 0 ==> !IsStrWhiteSpaceChar(t[0])
  {
    if |s| > 0 && IsStrWhiteSpaceChar(s[0]) then TrimStart(s[1..]) else s
  }

  function TrimEnd(s: string): (t: string)
    ensures |t| <= |s|
    ensures |t| > 0 ==> !IsStrWhiteSpaceChar(t[|t| - 1])
  {
    if |s| > 0 && IsStrWhiteSpaceChar(s[|s| - 1]) then TrimEnd(s[..|s| - 1]) else s
  }

  /** Index of the first character satisfying `p`, or `|s|` if none does. */
  function FirstIndex(s: string, p: char -> bool): (i: nat)
    ensures i <= |s|
    ensures forall k :: 0 <= k < i ==> !p(s[k])
    ensures i < |s| ==> p(s[i])
  {
    if |s| == 0 then 0
    else if p(s[0]) then 0
    else 1 + FirstIndex(s[1..], p)
  }

  /** DecimalDigits (without numeric separators). */
  predicate DecimalDigits(s: string) {
    |s| > 0 && AllDigits(s)
  }

  /** SignedInteger of an ExponentPart. */
  predicate SignedInteger(s: string) {
    if |s| > 0 && (s[0] == '+' || s[0] == '-') then DecimalDigits(s[1..]) else DecimalDigits(s)
  }

  /** `digits . digits?`, `. digits` or `digits`: the part before the exponent. */
  predicate Mantissa(m: string) {
    var j := FirstIndex(m, c => c == '.');
    if j == |m| then DecimalDigits(m)
    else
      || (DecimalDigits(m[..j]) && (j + 1 == |m| || DecimalDigits(m[j + 1..])))
      || (j == 0 && DecimalDigits(m[1..]))
  }

  /** StrUnsignedDecimalLiteral. */
  predicate UnsignedDecimal(s: string) {
    s == "Infinity" ||
    var i := FirstIndex(s, c => c == 'e' || c == 'E');
    if i == |s| then Mantissa(s) else Mantissa(s[..i]) && SignedInteger(s[i + 1..])
  }

  /** StrDecimalLiteral: an optional sign, then an unsigned literal. */
  predicate DecimalLiteral(s: string) {
    if |s| > 0 && (s[0] == '+' || s[0] == '-') then UnsignedDecimal(s[1..]) else UnsignedDecimal(s)
  }

  predicate AllIn(s: string, alphabet: string) {
    forall k :: 0 <= k < |s| ==> s[k] in alphabet
  }

  /** NonDecimalIntegerLiteral: `0b…`, `0o…` or `0x…` (no sign allowed). */
  predicate NonDecimalInteger(s: string) {
    |s| >= 3 && s[0] == '0' &&
    ( (s[1] in "bB" && AllIn(s[2..], "01"))
      || (s[1] in "oO" && AllIn(s[2..], "01234567"))
      || (s[1] in "xX" && AllIn(s[2..], "0123456789abcdefABCDEF")))
  }

  /** StringNumericLiteral: optional white space around an optional literal.
      The empty and the all-blank string read as 0. */
  predicate IsStringNumericLiteral(s: string) {
    var t := TrimEnd(TrimStart(s));
    t == "" || DecimalLiteral(t) || NonDecimalInteger(t)
  }

  /** ToNumber(s) is NaN. */
  predicate IsNaN(s: string) {
    !IsStringNumericLiteral(s)
  }

  /** A literal that is not blank starts with a sign, a digit, a dot or the
      `I` of Infinity; any other first non-blank character makes it NaN. */
  lemma {:induction false} LiteralStart(s: string)
    requires IsStringNumericLiteral(s)
    requires TrimEnd(TrimStart(s)) != ""
    ensures var t := TrimEnd(TrimStart(s)); t[0] in "+-.0123456789I"
  {
    var t := TrimEnd(TrimStart(s));
    if !NonDecimalInteger(t) {
      var u := if t[0] == '+' || t[0] == '-' then t[1..] else t;
      assert UnsignedDecimal(u);
      if t[0] != '+' && t[0] != '-' && u != "Infinity" {
        var i := FirstIndex(u, c => c == 'e' || c == 'E');
        var m := if i == |u| then u else u[..i];
        assert Mantissa(m);
        assert |m| > 0 && m[0] == t[0];
        var j := FirstIndex(m, c => c == '.');
        if j == 0 {
          assert m[0] == '.';
        } else {
          assert DecimalDigits(m[..j]) || DecimalDigits(m);
          assert IsDigit(m[0]);
        }
      }
    }
  }

  /** Every tag whose first non-blank character is a letter other than `I`
      is NaN to JavaScript, so `a - b` on two such tags is NaN. */
  lemma LetterStartIsNaN(s: string)
    requires |TrimEnd(TrimStart(s))| > 0
    requires TrimEnd(TrimStart(s))[0] !in "+-.0123456789I"
    ensures IsNaN(s)
  {
    if IsStringNumericLiteral(s) {
      LiteralStart(s);
    }
  }
}

=== FILE: keys.dfy ===
/** Request normalisation and cache keys. The tag parameter arrives as a
    single string or as a list; it is wrapped into a list, sorted with the
    comparator `(a, b) => a - b`, and joined with "-" after "tags_". The
    other routes key on a constant or on the requested age. */
module Keys {
  import opened Wrappers
  import opened Strings
  import opened JsNumber
  import opened Sorting

  /** The `tag` query parameter: missing, given once, or given repeatedly. */
  datatype TagParam = Absent | One(tag: string) | Many(tags: seq<string>)

  /** `if (!tag) reject; if (!Array.isArray(tag)) tag = [tag]`. A missing or
      empty single value is falsy; a list is truthy even when empty. */
  function TagList(p: TagParam): (r: Option<seq<string>>)
    ensures r.None? <==> p.Absent? || p == One("")
    ensures p.One? && r.Some? ==> r.value == [p.tag]
    ensures p.Many? ==> r == Some(p.tags)
  {
    match p
    case Absent => None
    case One(t) => if t == "" then None else Some([t])
    case Many(ts) => Some(ts)
  }

  /** The comparator `(a, b) => a - b` as the sort reads it: a NaN
      difference counts as +0. When both tags are numeric the sign of the
      floating-point difference is supplied as `numberOrder`. */
  function TagComparator(numberOrder: (string, string) -> int): (string, string) -> int {
    (a: string, b: string) => if IsNaN(a) || IsNaN(b) then 0 else numberOrder(a, b)
  }

  /** `tag.sort((a, b) => a - b)`: a stable sort that keeps every tag. */
  function SortTags(tags: seq<string>, numberOrder: (string, string) -> int): (r: seq<string>)
    ensures multiset(r) == multiset(tags)
  {
    Sort(tags, TagComparator(numberOrder))
  }

  /** When no tag reads as a number every comparison is NaN, and the
      stable sort leaves the tags in request order. */
  lemma NonNumericTagsKeepOrder(tags: seq<string>, numberOrder: (string, string) -> int)
    requires forall i :: 0 <= i < |tags| ==> IsNaN(tags[i])
    ensures SortTags(tags, numberOrder) == tags
  {
    SortAllEqualIsIdentity(tags, TagComparator(numberOrder));
  }

  /** "tags_" followed by the tags joined with "-". */
  function TagsKey(tags: seq<string>): string {
    "tags_" + Join(tags, "-")
  }

  const TrendingKey: string := "trending"

  /** `top${age}`. */
  function TopKey(age: nat): string {
    "top" + NatToString(age)
  }

  /** `announcements${age}`. */
  function AnnouncementsKey(age: nat): string {
    "announcements" + NatToString(age)
  }

  /** Requests that name the same two non-numeric tags in opposite orders
      get different cache entries (for tags without "-"; see
      `TagsKeyCollision` for what "-" allows). */
  lemma TagOrderChangesKey(a: string, b: string, numberOrder: (string, string) -> int)
    requires IsNaN(a) && IsNaN(b) && a != b
    requires '-' !in a && '-' !in b
    ensures TagsKey(SortTags([b, a], numberOrder)) != TagsKey(SortTags([a, b], numberOrder))
  {
    var ba: seq<string> := [b, a];
    var ab: seq<string> := [a, b];
    NonNumericTagsKeepOrder(ba, numberOrder);
    NonNumericTagsKeepOrder(ab, numberOrder);
    SwappedTagsKeysDiffer(a, b);
  }

  /** Proof step of `TagOrderChangesKey`: the key prefix does not hide the
      difference between the two joins. */
  lemma SwappedTagsKeysDiffer(a: string, b: string)
    requires a != b
    requires '-' !in a && '-' !in b
    ensures TagsKey([b, a]) != TagsKey([a, b])
  {
    SwappedJoinDiffers(a, b, '-');
    assert TagsKey([b, a])[5..] == Join([b, a], "-");
    assert TagsKey([a, b])[5..] == Join([a, b], "-");
  }

  /** Different tag lists can share a key: a single tag containing "-"
      collides with the list of its parts. */
  lemma TagsKeyCollision()
    ensures ["a-b"] != ["a", "b"]
    ensures TagsKey(["a-b"]) == TagsKey(["a", "b"])
  {
  }

  /** `/top` gives each age its own entry. */
  lemma TopKeysInjective(a: nat, b: nat)
    ensures TopKey(a) == TopKey(b) <==> a == b
  {
    DecimalInjective(a, b);
    if TopKey(a) == TopKey(b) {
      assert TopKey(a)[3..] == NatToString(a);
      assert TopKey(b)[3..] == NatToString(b);
    }
  }

  /** `/announcements` gives each age its own entry. */
  lemma AnnouncementsKeysInjective(a: nat, b: nat)
    ensures AnnouncementsKey(a) == AnnouncementsKey(b) <==> a == b
  {
    DecimalInjective(a, b);
    if AnnouncementsKey(a) == AnnouncementsKey(b) {
      assert AnnouncementsKey(a)[13..] == NatToString(a);
      assert AnnouncementsKey(b)[13..] == NatToString(b);
    }
  }

  /** The four routes share one cache without ever reading each other's
      entries: their keys differ in the first two characters. */
  lemma RouteKeysDisjoint(tags: seq<string>, a: nat, b: nat)
    ensures TagsKey(tags) != TrendingKey
    ensures TagsKey(tags) != TopKey(a)
    ensures TagsKey(tags) != AnnouncementsKey(b)
    ensures TrendingKey != TopKey(a)
    ensures TrendingKey != AnnouncementsKey(b)
    ensures TopKey(a) != AnnouncementsKey(b)
  {
    assert TagsKey(tags)[1] == 'a';
    assert TopKey(a)[0] == 't' && TopKey(a)[1] == 'o';
    assert AnnouncementsKey(b)[0] == 'a';
  }
}

=== FILE: routes.dfy ===
/** The four read-only feed routes: `/tags`, `/trending`, `/announcements`
    and `/top`. Each normalises its parameters, derives a cache key, and on
    a miss runs its query, attaches tags and stores the list. */
module Routes {
  import opened Wrappers
  import opened Strings
  import opened Rows
  import opened Feed
  import opened Enrichment
  import opened CacheGate
  import opened Keys

  /** The tables the routes read, and whether each storage call throws
      (with the error's text). */
  datatype Db = Db(
    sources: seq<Source>,
    posts: seq<PostRow>,
    postTags: seq<TagRow>,
    postsFault: Option<string>,
    tagsFault: Option<string>)

  /** What the database and the JavaScript engine decide that the code does
      not: the clock (`UNIX_TIMESTAMP()`), the representative of each
      `main_url` group, the order of two numeric tags, and
      `LOG10(score / score_avg)`. */
  datatype Env = Env(
    now: int,
    pick: Pick,
    numberOrder: (string, string) -> int,
    logScore: Row -> Rank)

  const MissingTagStatus: nat := 401
  const MissingTagMessage: string := "missing tag param"
  const DefaultTagsOffset: nat := 0
  const DefaultTagsLimit: nat := 50
  const MaxTagsLimit: nat := 100
  const TrendingLimit: nat := 100
  const TrendingAge: nat := 72
  const TrendingScoreFloor: int := 4
  const TopLimit: nat := 5
  const DefaultTopAge: nat := 168
  const DefaultAnnouncementsAge: nat := 336

  /** `Math.min(parseInt(limit || 50), 100)`. */
  function TagsLimit(limit: Option<nat>): (n: nat)
    ensures n <= MaxTagsLimit
    ensures limit.None? ==> n == DefaultTagsLimit
    ensures limit.Some? ==> n == (if limit.value < MaxTagsLimit then limit.value else MaxTagsLimit)
  {
    var l := limit.GetOr(DefaultTagsLimit);
    if l < MaxTagsLimit then l else MaxTagsLimit
  }

  /** Not from one of the four announcement-type channels. */
  predicate NotExcluded(p: PostRow) {
    !StartsWithAny(p.pid, FeedExcludedChannels)
  }

  /** Some `post_tags` row of the post carries one of `tags`. */
  predicate Tagged(p: PostRow, table: seq<TagRow>, tags: seq<string>) {
    exists t :: t in table && t.postId == p.id && t.tag in tags
  }

  predicate TagsFilter(r: Row) {
    HasText(r.post) && NotExcluded(r.post)
  }

  predicate TrendingFilter(now: int, r: Row) {
    && WithinAge(r.post, now, TrendingAge)
    && HasText(r.post)
    && r.post.score > TrendingScoreFloor
    && !StartsWith(r.post.pid, GeneralChannel)
  }

  predicate TopFilter(now: int, age: nat, r: Row) {
    WithinAge(r.post, now, age) && HasText(r.post) && NotExcluded(r.post)
  }

  predicate AnnouncementsFilter(now: int, age: nat, r: Row) {
    StartsWithAny(r.post.pid, AnnouncementChannels) && WithinAge(r.post, now, age)
  }

  function TagsPlan(offset: nat, limit: nat): Query {
    Query(r => TagsFilter(r), PerRow(PlainStrength), ByStrength, offset, Some(limit))
  }

  function TrendingPlan(now: int, logScore: Row -> Rank): Query {
    Query(r => TrendingFilter(now, r), GroupMax(r => DecayedStrength(r, now, logScore)),
          ByStrength, 0, Some(TrendingLimit))
  }

  function TopPlan(now: int, age: nat): Query {
    Query(r => TopFilter(now, age, r), PerRow(PlainStrength), ByStrength, 0, Some(TopLimit))
  }

  function AnnouncementsPlan(now: int, age: nat): Query {
    Query(r => AnnouncementsFilter(now, age, r), NoStrength, ByCreatedAt, 0, None)
  }

  /** One copy of `x` per `post_tags` row of its post whose tag is requested. */
  function TagMatches(x: Row, table: seq<TagRow>, tags: seq<string>): (r: seq<Row>)
    ensures forall y :: y in r ==> y == x
    ensures |r| > 0 <==> Tagged(x.post, table, tags)
  {
    if |table| == 0 then []
    else
      assert forall t :: t in table ==> t == table[0] || t in table[1..];
      (if table[0].postId == x.post.id && table[0].tag in tags then [x] else [])
      + TagMatches(x, table[1..], tags)
  }

  /** `LEFT JOIN post_tags ON posts.id = post_tags.post_id
      WHERE post_tags.tag IN (tags)`: a row survives once per matching tag
      row; with no tags requested, nothing survives. */
  function TaggedRows(rows: seq<Row>, table: seq<TagRow>, tags: seq<string>): (r: seq<Row>)
    ensures forall x :: x in r <==> x in rows && Tagged(x.post, table, tags)
  {
    if |rows| == 0 then []
    else
      assert forall x :: x in rows ==> x == rows[0] || x in rows[1..];
      var m := TagMatches(rows[0], table, tags);
      assert |m| > 0 ==> m[0] in m;
      m + TaggedRows(rows[1..], table, tags)
  }

  /** The pipeline behind a miss: the feed query, then the tag lookup. An
      exception from either call abandons the pipeline. */
  function Fetch(q: Query, rows: seq<Row>, db: Db, pick: Pick): (c: Computation)
    ensures c.result.Success? <==> db.postsFault.None? && db.tagsFault.None?
    ensures db.postsFault.Some? ==> c == Computation(Failure(db.postsFault.value), [PostsQuery])
    ensures db.postsFault.None? ==> c.calls == [PostsQuery, TagsQuery]
    ensures db.postsFault.None? && db.tagsFault.Some? ==> c.result == Failure(db.tagsFault.value)
  {
    match db.postsFault
    case Some(e) => Computation(Failure(e), [PostsQuery])
    case None =>
      var selected := Run(q, rows, pick);
      match db.tagsFault
      case Some(e) => Computation(Failure(e), [PostsQuery, TagsQuery])
      case None => Computation(Success(Enrich(selected, db.postTags)), [PostsQuery, TagsQuery])
  }

  datatype TagsRequest = TagsRequest(tag: TagParam, offset: Option<nat>, limit: Option<nat>)

  /** The normalised tag list of an accepted request. */
  function RequestTags(req: TagsRequest, numberOrder: (string, string) -> int): seq<string>
    requires TagList(req.tag).Some?
  {
    SortTags(TagList(req.tag).value, numberOrder)
  }

  /** GET /tags. */
  function Tags(req: TagsRequest, db: Db, cache: Cache, env: Env): (r: Response)
    ensures r.outcome.ClientError? <==> req.tag.Absent? || req.tag == One("")
    ensures r.outcome.ClientError? ==> r == Response(ClientError(MissingTagStatus, MissingTagMessage), cache, [])
  {
    match TagList(req.tag)
    case None => Response(ClientError(MissingTagStatus, MissingTagMessage), cache, [])
    case Some(list) =>
      var tags := SortTags(list, env.numberOrder);
      var q := TagsPlan(req.offset.GetOr(DefaultTagsOffset), TagsLimit(req.limit));
      Gate(cache, TagsKey(tags), Fetch(q, TaggedRows(Rows.Join(db.sources, db.posts), db.postTags, tags), db, env.pick))
  }

  /** GET /trending. */
  function Trending(db: Db, cache: Cache, env: Env): (r: Response)
    ensures !r.outcome.ClientError?
    ensures TrendingKey in cache ==> r == Response(Ok(cache[TrendingKey]), cache, [CacheGet(TrendingKey)])
    ensures TrendingKey !in cache && db.postsFault.Some? ==>
      r.outcome == ServerError(InternalError, db.postsFault.value) && r.cache == cache
  {
    Gate(cache, TrendingKey, Fetch(TrendingPlan(env.now, env.logScore), Rows.Join(db.sources, db.posts), db, env.pick))
  }

  /** GET /top. */
  function Top(age: Option<nat>, db: Db, cache: Cache, env: Env): (r: Response)
    ensures !r.outcome.ClientError?
    ensures var key := TopKey(age.GetOr(DefaultTopAge));
      key in cache ==> r == Response(Ok(cache[key]), cache, [CacheGet(key)])
    ensures var key := TopKey(age.GetOr(DefaultTopAge));
      key !in cache && db.postsFault.Some? ==>
        r.outcome == ServerError(InternalError, db.postsFault.value) && r.cache == cache
  {
    var a := age.GetOr(DefaultTopAge);
    Gate(cache, TopKey(a), Fetch(TopPlan(env.now, a), Rows.Join(db.sources, db.posts), db, env.pick))
  }

  /** GET /announcements. */
  function Announcements(age: Option<nat>, db: Db, cache: Cache, env: Env): (r: Response)
    ensures !r.outcome.ClientError?
    ensures var key := AnnouncementsKey(age.GetOr(DefaultAnnouncementsAge));
      key in cache ==> r == Response(Ok(cache[key]), cache, [CacheGet(key)])
    ensures var key := AnnouncementsKey(age.GetOr(DefaultAnnouncementsAge));
      key !in cache && db.postsFault.Some? ==>
        r.outcome == ServerError(InternalError, db.postsFault.value) && r.cache == cache
  {
    var a := age.GetOr(DefaultAnnouncementsAge);
    Gate(cache, AnnouncementsKey(a), Fetch(AnnouncementsPlan(env.now, a), Rows.Join(db.sources, db.posts), db, env.pick))
  }

  /** What every route's list guarantees whatever its filter: each entry is
      a joined row of the tables standing for its own `main_url`, no two
      entries share a `main_url`, and each carries exactly its own tag
      rows. */
  ghost predicate Served(posts: seq<Post>, db: Db) {
    && (forall i :: 0 <= i < |posts| ==>
          var s := posts[i].selected;
          && s.row.source in db.sources
          && s.row.post in db.posts
          && s.row.post.sid == s.row.source.id
          && s.mainUrl == MainUrl(s.row.post)
          && posts[i].tags == PostTags(db.postTags, s.row.post.id))
    && (forall i, j :: 0 <= i < j < |posts| ==> posts[i].selected.mainUrl != posts[j].selected.mainUrl)
  }

  /** A miss that is answered with a list answers with the feed query's
      rows, each with its tags: neither storage call failed. */
  lemma MissAnswer(cache: Cache, key: string, q: Query, rows: seq<Row>, db: Db, pick: Pick)
    ensures var r := Gate(cache, key, Fetch(q, rows, db, pick));
      key !in cache && r.outcome.Ok? ==>
        && db.postsFault.None? && db.tagsFault.None?
        && r.outcome.posts == Enrich(Run(q, rows, pick), db.postTags)
  {
    var c := Fetch(q, rows, db, pick);
    if key !in cache && c.result.Success? {
      assert c.result.value == Enrich(Run(q, rows, pick), db.postTags);
    }
  }

  /** The enriched result of a feed query over joined rows is `Served`. */
  lemma EnrichServed(q: Query, rows: seq<Row>, db: Db, pick: Pick)
    requires forall x :: x in rows ==> x in Rows.Join(db.sources, db.posts)
    ensures var sel := Run(q, rows, pick);
      var posts := Enrich(sel, db.postTags);
      && |posts| == |sel|
      && (forall i :: 0 <= i < |posts| ==> posts[i].selected == sel[i])
      && Served(posts, db)
  {
    var sel := Run(q, rows, pick);
    RunFacts(q, rows, pick);
    EnrichAttachesOwnTags(sel, db.postTags);
  }

  /** The `/tags` query keeps posts with text outside the excluded channels,
      with `score / score_avg` as strength, and returns at most `limit`. */
  lemma TagsRun(offset: nat, limit: nat, rows: seq<Row>, pick: Pick)
    ensures var sel := Run(TagsPlan(offset, limit), rows, pick);
      && |sel| <= limit
      && (forall i :: 0 <= i < |sel| ==>
            sel[i].row in rows && TagsFilter(sel[i].row) && sel[i].strength == Some(PlainStrength(sel[i].row)))
  {
    var q := TagsPlan(offset, limit);
    RunFacts(q, rows, pick);
    RunStrength(q, rows, pick);
  }

  /** The `/tags` query ranks by `score / score_avg`, high to low. */
  lemma TagsOrder(offset: nat, limit: nat, rows: seq<Row>, pick: Pick)
    ensures var sel := Run(TagsPlan(offset, limit), rows, pick);
      forall i, j :: 0 <= i < j < |sel| ==> RankLe(PlainStrength(sel[j].row), PlainStrength(sel[i].row))
  {
    var q := TagsPlan(offset, limit);
    var sel := Run(q, rows, pick);
    RunOrder(q, rows, pick);
    RunStrength(q, rows, pick);
    forall i, j | 0 <= i < j < |sel|
      ensures RankLe(PlainStrength(sel[j].row), PlainStrength(sel[i].row))
    {
      assert RankLe(OrderValue(q.orderBy, sel[j]), OrderValue(q.orderBy, sel[i]));
    }
  }

  /** Every row of `TaggedRows` over the requested list carries a tag of the
      list as the request gave it, whatever order it was sorted into. */
  lemma TaggedInRequest(x: Row, rows: seq<Row>, table: seq<TagRow>, list: seq<string>, tags: seq<string>)
    requires multiset(tags) == multiset(list)
    requires x in TaggedRows(rows, table, tags)
    ensures x in rows && Tagged(x.post, table, list)
  {
    var t :| t in table && t.postId == x.post.id && t.tag in tags;
    assert multiset(list)[t.tag] > 0;
  }

  /** On a miss that succeeds, `/tags` answers with at most the clamped
      limit of joined posts that have text, are outside the excluded
      channels and carry one of the requested tags, ranked by
      `score / score_avg` from high to low. */
  lemma TagsServed(req: TagsRequest, db: Db, cache: Cache, env: Env)
    requires TagList(req.tag).Some?
    ensures var r := Tags(req, db, cache, env);
      TagsKey(RequestTags(req, env.numberOrder)) !in cache && r.outcome.Ok? ==>
        var posts := r.outcome.posts;
        && Served(posts, db)
        && |posts| <= TagsLimit(req.limit)
        && (forall i :: 0 <= i < |posts| ==>
              var s := posts[i].selected;
              && TagsFilter(s.row)
              && Tagged(s.row.post, db.postTags, TagList(req.tag).value)
              && s.strength == Some(PlainStrength(s.row)))
        && (forall i, j :: 0 <= i < j < |posts| ==>
              RankLe(PlainStrength(posts[j].selected.row), PlainStrength(posts[i].selected.row)))
  {
    var list := TagList(req.tag).value;
    var tags := RequestTags(req, env.numberOrder);
    var key := TagsKey(tags);
    var q := TagsPlan(req.offset.GetOr(DefaultTagsOffset), TagsLimit(req.limit));
    var rows := TaggedRows(Rows.Join(db.sources, db.posts), db.postTags, tags);
    var r := Gate(cache, key, Fetch(q, rows, db, env.pick));
    assert Tags(req, db, cache, env) == r;
    MissAnswer(cache, key, q, rows, db, env.pick);
    if key !in cache && r.outcome.Ok? {
      var sel := Run(q, rows, env.pick);
      var posts := r.outcome.posts;
      EnrichServed(q, rows, db, env.pick);
      TagsRun(q.offset, TagsLimit(req.limit), rows, env.pick);
      TagsOrder(q.offset, TagsLimit(req.limit), rows, env.pick);
      forall i | 0 <= i < |posts|
        ensures Tagged(posts[i].selected.row.post, db.postTags, list)
      {
        TaggedInRequest(sel[i].row, Rows.Join(db.sources, db.posts), db.postTags, list, tags);
      }
    }
  }

  /** The `/trending` query keeps recent, scored posts with text outside the
      general channel, at most 100. */
  lemma TrendingRun(now: int, logScore: Row -> Rank, rows: seq<Row>, pick: Pick)
    ensures var sel := Run(TrendingPlan(now, logScore), rows, pick);
      && |sel| <= TrendingLimit
      && (forall i :: 0 <= i < |sel| ==> sel[i].row in rows && TrendingFilter(now, sel[i].row))
  {
    var q := TrendingPlan(now, logScore);
    RunFacts(q, rows, pick);
  }

  /** Each `/trending` row carries the highest decayed strength among its
      `main_url` group's qualifying rows, attained by one of them. */
  lemma TrendingStrength(now: int, logScore: Row -> Rank, rows: seq<Row>, pick: Pick)
    ensures var sel := Run(TrendingPlan(now, logScore), rows, pick);
      forall i :: 0 <= i < |sel| ==>
        && sel[i].strength.Some?
        && (forall y :: y in rows && TrendingFilter(now, y) && MainUrl(y.post) == sel[i].mainUrl
              ==> RankLe(DecayedStrength(y, now, logScore), sel[i].strength.value))
        && (exists y :: y in rows && TrendingFilter(now, y) && MainUrl(y.post) == sel[i].mainUrl
              && sel[i].strength.value == DecayedStrength(y, now, logScore))
  {
    var q := TrendingPlan(now, logScore);
    var sel := Run(q, rows, pick);
    RunStrength(q, rows, pick);
    forall i | 0 <= i < |sel|
      ensures StrengthAgrees(q.strength, q.where, rows, sel[i])
    {
    }
  }

  /** `/trending` runs from the strongest group down. */
  lemma TrendingOrder(now: int, logScore: Row -> Rank, rows: seq<Row>, pick: Pick)
    ensures var sel := Run(TrendingPlan(now, logScore), rows, pick);
      forall i, j :: 0 <= i < j < |sel| ==>
        sel[i].strength.Some? && sel[j].strength.Some? && RankLe(sel[j].strength.value, sel[i].strength.value)
  {
    var q := TrendingPlan(now, logScore);
    var sel := Run(q, rows, pick);
    RunOrder(q, rows, pick);
    RunStrength(q, rows, pick);
    forall i, j | 0 <= i < j < |sel|
      ensures sel[i].strength.Some? && sel[j].strength.Some? && RankLe(sel[j].strength.value, sel[i].strength.value)
    {
      assert StrengthAgrees(q.strength, q.where, rows, sel[i]);
      assert StrengthAgrees(q.strength, q.where, rows, sel[j]);
      assert RankLe(OrderValue(q.orderBy, sel[j]), OrderValue(q.orderBy, sel[i]));
    }
  }

  /** On a miss that succeeds, `/trending` answers with at most 100 posts of
      the last 72 hours that have text, score above 4 and are not from the
      general channel. Each stands for its `main_url` with the highest
      decayed strength among that group's qualifying rows, and the list
      runs from the strongest group down. */
  lemma TrendingServed(db: Db, cache: Cache, env: Env)
    ensures var r := Trending(db, cache, env);
      TrendingKey !in cache && r.outcome.Ok? ==>
        var posts := r.outcome.posts;
        var joined := Rows.Join(db.sources, db.posts);
        && Served(posts, db)
        && |posts| <= TrendingLimit
        && (forall i :: 0 <= i < |posts| ==>
              var s := posts[i].selected;
              && TrendingFilter(env.now, s.row)
              && s.strength.Some?
              && (forall y :: y in joined && TrendingFilter(env.now, y) && MainUrl(y.post) == s.mainUrl
                    ==> RankLe(DecayedStrength(y, env.now, env.logScore), s.strength.value))
              && (exists y :: y in joined && TrendingFilter(env.now, y) && MainUrl(y.post) == s.mainUrl
                    && s.strength.value == DecayedStrength(y, env.now, env.logScore)))
        && (forall i, j :: 0 <= i < j < |posts| ==>
              RankLe(posts[j].selected.strength.value, posts[i].selected.strength.value))
  {
    var q := TrendingPlan(env.now, env.logScore);
    var rows := Rows.Join(db.sources, db.posts);
    var r := Gate(cache, TrendingKey, Fetch(q, rows, db, env.pick));
    assert Trending(db, cache, env) == r;
    MissAnswer(cache, TrendingKey, q, rows, db, env.pick);
    if TrendingKey !in cache && r.outcome.Ok? {
      EnrichServed(q, rows, db, env.pick);
      TrendingRun(env.now, env.logScore, rows, env.pick);
      TrendingStrength(env.now, env.logScore, rows, env.pick);
      TrendingOrder(env.now, env.logScore, rows, env.pick);
    }
  }

  /** The `/top` query keeps posts of the age window with text outside the
      excluded channels, with `score / score_avg` as strength, at most five. */
  lemma TopRun(now: int, age: nat, rows: seq<Row>, pick: Pick)
    ensures var sel := Run(TopPlan(now, age), rows, pick);
      && |sel| <= TopLimit
      && (forall i :: 0 <= i < |sel| ==>
            sel[i].row in rows && TopFilter(now, age, sel[i].row) && sel[i].strength == Some(PlainStrength(sel[i].row)))
  {
    var q := TopPlan(now, age);
    RunFacts(q, rows, pick);
    RunStrength(q, rows, pick);
  }

  /** The `/top` query ranks by `score / score_avg`, high to low. */
  lemma TopOrder(now: int, age: nat, rows: seq<Row>, pick: Pick)
    ensures var sel := Run(TopPlan(now, age), rows, pick);
      forall i, j :: 0 <= i < j < |sel| ==> RankLe(PlainStrength(sel[j].row), PlainStrength(sel[i].row))
  {
    var q := TopPlan(now, age);
    var sel := Run(q, rows, pick);
    RunOrder(q, rows, pick);
    RunStrength(q, rows, pick);
    forall i, j | 0 <= i < j < |sel|
      ensures RankLe(PlainStrength(sel[j].row), PlainStrength(sel[i].row))
    {
      assert RankLe(OrderValue(q.orderBy, sel[j]), OrderValue(q.orderBy, sel[i]));
    }
  }

  /** On a miss that succeeds, `/top` answers with at most five posts of the
      requested age window (one week by default) that have text and are
      outside the excluded channels, ranked by `score / score_avg`. */
  lemma TopServed(age: Option<nat>, db: Db, cache: Cache, env: Env)
    ensures var r := Top(age, db, cache, env);
      var a := age.GetOr(DefaultTopAge);
      TopKey(a) !in cache && r.outcome.Ok? ==>
        var posts := r.outcome.posts;
        && Served(posts, db)
        && |posts| <= TopLimit
        && (forall i :: 0 <= i < |posts| ==>
              var s := posts[i].selected;
              TopFilter(env.now, a, s.row) && s.strength == Some(PlainStrength(s.row)))
        && (forall i, j :: 0 <= i < j < |posts| ==>
              RankLe(PlainStrength(posts[j].selected.row), PlainStrength(posts[i].selected.row)))
  {
    var a := age.GetOr(DefaultTopAge);
    var q := TopPlan(env.now, a);
    var rows := Rows.Join(db.sources, db.posts);
    var r := Gate(cache, TopKey(a), Fetch(q, rows, db, env.pick));
    assert Top(age, db, cache, env) == r;
    MissAnswer(cache, TopKey(a), q, rows, db, env.pick);
    if TopKey(a) !in cache && r.outcome.Ok? {
      EnrichServed(q, rows, db, env.pick);
      TopRun(env.now, a, rows, env.pick);
      TopOrder(env.now, a, rows, env.pick);
    }
  }

  /** The `/announcements` query keeps posts of the three announcement
      channels in the age window, with no strength column. */
  lemma AnnouncementsRun(now: int, age: nat, rows: seq<Row>, pick: Pick)
    ensures var sel := Run(AnnouncementsPlan(now, age), rows, pick);
      forall i :: 0 <= i < |sel| ==>
        sel[i].row in rows && AnnouncementsFilter(now, age, sel[i].row) && sel[i].strength.None?
  {
    var q := AnnouncementsPlan(now, age);
    RunRows(q, rows, pick);
    RunStrength(q, rows, pick);
  }

  /** The `/announcements` query lists the newest post first. */
  lemma AnnouncementsOrder(now: int, age: nat, rows: seq<Row>, pick: Pick)
    ensures var sel := Run(AnnouncementsPlan(now, age), rows, pick);
      forall i, j :: 0 <= i < j < |sel| ==> sel[j].row.post.createdAt <= sel[i].row.post.createdAt
  {
    var q := AnnouncementsPlan(now, age);
    var sel := Run(q, rows, pick);
    RunOrder(q, rows, pick);
    forall i, j | 0 <= i < j < |sel|
      ensures sel[j].row.post.createdAt <= sel[i].row.post.createdAt
    {
      assert RankLe(OrderValue(ByCreatedAt, sel[j]), OrderValue(ByCreatedAt, sel[i]));
    }
  }

  /** The `/announcements` query has no limit, so every qualifying
      `main_url` appears in it. */
  lemma AnnouncementsComplete(now: int, age: nat, rows: seq<Row>, pick: Pick)
    ensures var sel := Run(AnnouncementsPlan(now, age), rows, pick);
      forall y :: y in rows && AnnouncementsFilter(now, age, y) ==>
        exists i :: 0 <= i < |sel| && sel[i].mainUrl == MainUrl(y.post)
  {
    var q := AnnouncementsPlan(now, age);
    RunComplete(q, rows, pick);
  }

  /** Wrapping the `/announcements` selection with tags keeps every
      qualifying `main_url` represented. */
  lemma AnnouncementsPostsComplete(now: int, age: nat, rows: seq<Row>, pick: Pick, posts: seq<Post>)
    requires |posts| == |Run(AnnouncementsPlan(now, age), rows, pick)|
    requires forall i :: 0 <= i < |posts| ==> posts[i].selected == Run(AnnouncementsPlan(now, age), rows, pick)[i]
    ensures forall y :: y in rows && AnnouncementsFilter(now, age, y) ==>
      exists i :: 0 <= i < |posts| && posts[i].selected.mainUrl == MainUrl(y.post)
  {
    AnnouncementsComplete(now, age, rows, pick);
    SameUrls(posts, Run(AnnouncementsPlan(now, age), rows, pick));
  }

  /** On a miss that succeeds, `/announcements` answers with posts of the
      three announcement channels in the requested age window (two weeks by
      default), newest first, with every qualifying `main_url` represented. */
  lemma AnnouncementsServed(age: Option<nat>, db: Db, cache: Cache, env: Env)
    ensures var r := Announcements(age, db, cache, env);
      var a := age.GetOr(DefaultAnnouncementsAge);
      AnnouncementsKey(a) !in cache && r.outcome.Ok? ==>
        var posts := r.outcome.posts;
        && Served(posts, db)
        && (forall i :: 0 <= i < |posts| ==>
              var s := posts[i].selected;
              AnnouncementsFilter(env.now, a, s.row) && s.strength.None?)
        && (forall i, j :: 0 <= i < j < |posts| ==>
              posts[j].selected.row.post.createdAt <= posts[i].selected.row.post.createdAt)
        && (forall y :: y in Rows.Join(db.sources, db.posts) && AnnouncementsFilter(env.now, a, y) ==>
              exists i :: 0 <= i < |posts| && posts[i].selected.mainUrl == MainUrl(y.post))
  {
    var a := age.GetOr(DefaultAnnouncementsAge);
    var q := AnnouncementsPlan(env.now, a);
    var rows := Rows.Join(db.sources, db.posts);
    var r := Gate(cache, AnnouncementsKey(a), Fetch(q, rows, db, env.pick));
    assert Announcements(age, db, cache, env) == r;
    MissAnswer(cache, AnnouncementsKey(a), q, rows, db, env.pick);
    if AnnouncementsKey(a) !in cache && r.outcome.Ok? {
      AnnouncementsPosts(env.now, a, db, env.pick);
    }
  }

  /** The `/announcements` selection with its tags attached: the list that
      `AnnouncementsServed` describes, before the cache is involved. */
  lemma AnnouncementsPosts(now: int, age: nat, db: Db, pick: Pick)
    ensures var rows := Rows.Join(db.sources, db.posts);
      var posts := Enrich(Run(AnnouncementsPlan(now, age), rows, pick), db.postTags);
      && Served(posts, db)
      && (forall i :: 0 <= i < |posts| ==>
            var s := posts[i].selected;
            AnnouncementsFilter(now, age, s.row) && s.strength.None?)
      && (forall i, j :: 0 <= i < j < |posts| ==>
            posts[j].selected.row.post.createdAt <= posts[i].selected.row.post.createdAt)
      && (forall y :: y in rows && AnnouncementsFilter(now, age, y) ==>
            exists i :: 0 <= i < |posts| && posts[i].selected.mainUrl == MainUrl(y.post))
  {
    var q := AnnouncementsPlan(now, age);
    var rows := Rows.Join(db.sources, db.posts);
    var posts := Enrich(Run(q, rows, pick), db.postTags);
    EnrichServed(q, rows, db, pick);
    AnnouncementsRun(now, age, rows, pick);
    AnnouncementsOrder(now, age, rows, pick);
    AnnouncementsPostsComplete(now, age, rows, pick, posts);
  }

  /** The `main_url`s the `/tags` query counts are those of the joined rows
      that pass its filter and carry a tag of the request as given. */
  lemma TaggedUrls(joined: seq<Row>, table: seq<TagRow>, list: seq<string>, tags: seq<string>, offset: nat, limit: nat)
    requires multiset(tags) == multiset(list)
    ensures QualifyingUrls(TagsPlan(offset, limit).where, TaggedRows(joined, table, tags))
      == set y | y in joined && TagsFilter(y) && Tagged(y.post, table, list) :: MainUrl(y.post)
  {
    var rows := TaggedRows(joined, table, tags);
    var urls := set y | y in joined && TagsFilter(y) && Tagged(y.post, table, list) :: MainUrl(y.post);
    forall u | u in QualifyingUrls(TagsPlan(offset, limit).where, rows) ensures u in urls {
      var y :| y in rows && TagsFilter(y) && MainUrl(y.post) == u;
      TaggedInRequest(y, joined, table, list, tags);
    }
    forall u | u in urls ensures u in QualifyingUrls(TagsPlan(offset, limit).where, rows) {
      var y :| y in joined && TagsFilter(y) && Tagged(y.post, table, list) && MainUrl(y.post) == u;
      var t :| t in table && t.postId == y.post.id && t.tag in list;
      assert multiset(tags)[t.tag] > 0;
      assert y in rows;
    }
  }

  /** On a miss that succeeds, `/tags` answers with one post per distinct
      `main_url` of the qualifying tagged rows, cut to the OFFSET/LIMIT
      window: a short page means the tags have no further posts. */
  lemma TagsCount(req: TagsRequest, db: Db, cache: Cache, env: Env)
    requires TagList(req.tag).Some?
    ensures var r := Tags(req, db, cache, env);
      TagsKey(RequestTags(req, env.numberOrder)) !in cache && r.outcome.Ok? ==>
        var urls := set y | y in Rows.Join(db.sources, db.posts) && TagsFilter(y)
                              && Tagged(y.post, db.postTags, TagList(req.tag).value) :: MainUrl(y.post);
        |r.outcome.posts| == WindowSize(|urls|, req.offset.GetOr(DefaultTagsOffset), Some(TagsLimit(req.limit)))
  {
    var list := TagList(req.tag).value;
    var tags := RequestTags(req, env.numberOrder);
    var key := TagsKey(tags);
    var q := TagsPlan(req.offset.GetOr(DefaultTagsOffset), TagsLimit(req.limit));
    var joined := Rows.Join(db.sources, db.posts);
    var rows := TaggedRows(joined, db.postTags, tags);
    var r := Gate(cache, key, Fetch(q, rows, db, env.pick));
    assert Tags(req, db, cache, env) == r;
    MissAnswer(cache, key, q, rows, db, env.pick);
    if key !in cache && r.outcome.Ok? {
      RunCount(q, rows, env.pick);
      TaggedUrls(joined, db.postTags, list, tags, q.offset, TagsLimit(req.limit));
    }
  }

  /** On a miss that succeeds, `/trending` answers with one post per
      qualifying `main_url`, up to 100. */
  lemma TrendingCount(db: Db, cache: Cache, env: Env)
    ensures var r := Trending(db, cache, env);
      TrendingKey !in cache && r.outcome.Ok? ==>
        var n := |set y | y in Rows.Join(db.sources, db.posts) && TrendingFilter(env.now, y) :: MainUrl(y.post)|;
        |r.outcome.posts| == if n < TrendingLimit then n else TrendingLimit
  {
    var q := TrendingPlan(env.now, env.logScore);
    var rows := Rows.Join(db.sources, db.posts);
    MissAnswer(cache, TrendingKey, q, rows, db, env.pick);
    var r := Trending(db, cache, env);
    if TrendingKey !in cache && r.outcome.Ok? {
      RunCount(q, rows, env.pick);
      assert QualifyingUrls(q.where, rows) == set y | y in rows && TrendingFilter(env.now, y) :: MainUrl(y.post);
    }
  }

  /** On a miss that succeeds, `/top` answers with one post per qualifying
      `main_url`, up to five. */
  lemma TopCount(age: Option<nat>, db: Db, cache: Cache, env: Env)
    ensures var r := Top(age, db, cache, env);
      var a := age.GetOr(DefaultTopAge);
      TopKey(a) !in cache && r.outcome.Ok? ==>
        var n := |set y | y in Rows.Join(db.sources, db.posts) && TopFilter(env.now, a, y) :: MainUrl(y.post)|;
        |r.outcome.posts| == if n < TopLimit then n else TopLimit
  {
    var a := age.GetOr(DefaultTopAge);
    var q := TopPlan(env.now, a);
    var rows := Rows.Join(db.sources, db.posts);
    var r := Gate(cache, TopKey(a), Fetch(q, rows, db, env.pick));
    assert Top(age, db, cache, env) == r;
    MissAnswer(cache, TopKey(a), q, rows, db, env.pick);
    if TopKey(a) !in cache && r.outcome.Ok? {
      RunCount(q, rows, env.pick);
      assert QualifyingUrls(q.where, rows) == set y | y in rows && TopFilter(env.now, a, y) :: MainUrl(y.post);
    }
  }

  /** On a miss that succeeds, `/announcements` answers with exactly one
      post per qualifying `main_url`. */
  lemma AnnouncementsCount(age: Option<nat>, db: Db, cache: Cache, env: Env)
    ensures var r := Announcements(age, db, cache, env);
      var a := age.GetOr(DefaultAnnouncementsAge);
      AnnouncementsKey(a) !in cache && r.outcome.Ok? ==>
        |r.outcome.posts|
          == |set y | y in Rows.Join(db.sources, db.posts) && AnnouncementsFilter(env.now, a, y) :: MainUrl(y.post)|
  {
    var a := age.GetOr(DefaultAnnouncementsAge);
    var q := AnnouncementsPlan(env.now, a);
    var rows := Rows.Join(db.sources, db.posts);
    var r := Gate(cache, AnnouncementsKey(a), Fetch(q, rows, db, env.pick));
    assert Announcements(age, db, cache, env) == r;
    MissAnswer(cache, AnnouncementsKey(a), q, rows, db, env.pick);
    if AnnouncementsKey(a) !in cache && r.outcome.Ok? {
      RunCount(q, rows, env.pick);
      assert QualifyingUrls(q.where, rows) == set y | y in rows && AnnouncementsFilter(env.now, a, y) :: MainUrl(y.post);
    }
  }

  /** Entries that wrap the same selections represent the same rows' `main_url`s. */
  lemma SameUrls(posts: seq<Post>, sel: seq<Selected>)
    requires |posts| == |sel|
    requires forall i :: 0 <= i < |posts| ==> posts[i].selected == sel[i]
    ensures forall y: Row :: (exists i :: 0 <= i < |sel| && sel[i].mainUrl == MainUrl(y.post)) ==>
      exists i :: 0 <= i < |posts| && posts[i].selected.mainUrl == MainUrl(y.post)
  {
    forall y: Row | exists i :: 0 <= i < |sel| && sel[i].mainUrl == MainUrl(y.post)
      ensures exists i :: 0 <= i < |posts| && posts[i].selected.mainUrl == MainUrl(y.post)
    {
      var i :| 0 <= i < |sel| && sel[i].mainUrl == MainUrl(y.post);
      assert posts[i].selected.mainUrl == MainUrl(y.post);
    }
  }

  /** Once `/tags` has answered a request with a list, every request with
      the same tag parameter gets that list from the cache without touching
      storage: the key ignores `offset` and `limit`, and changes to the
      tables, the clock or the group representatives go unseen. */
  lemma TagsRepeat(req: TagsRequest, req2: TagsRequest, db: Db, db2: Db, cache: Cache, env: Env, env2: Env)
    requires req2.tag == req.tag
    requires env2.numberOrder == env.numberOrder
    ensures var r1 := Tags(req, db, cache, env);
      r1.outcome.Ok? ==>
        Tags(req2, db2, r1.cache, env2)
          == Response(r1.outcome, r1.cache, [CacheGet(TagsKey(RequestTags(req, env.numberOrder)))])
  {
    var r1 := Tags(req, db, cache, env);
    if r1.outcome.Ok? {
      var key := TagsKey(RequestTags(req, env.numberOrder));
      assert RequestTags(req2, env2.numberOrder) == RequestTags(req, env.numberOrder);
      assert key in r1.cache && r1.cache[key] == r1.outcome.posts;
    }
  }

  /** `/trending` has a single cache entry: after one successful answer,
      every later request gets that same list without touching storage. */
  lemma TrendingRepeat(db: Db, db2: Db, cache: Cache, env: Env, env2: Env)
    ensures var r1 := Trending(db, cache, env);
      r1.outcome.Ok? ==> Trending(db2, r1.cache, env2) == Response(r1.outcome, r1.cache, [CacheGet(TrendingKey)])
  {
    var r1 := Trending(db, cache, env);
    if r1.outcome.Ok? {
      assert TrendingKey in r1.cache && r1.cache[TrendingKey] == r1.outcome.posts;
    }
  }
}

=== FILE: rows.dfy ===
/** The tables a feed query reads (`sources`, `posts`, `post_tags`), the
    derived `main_url` and strength columns, and the channel prefixes the
    routes filter on. */
module Rows {
  import opened Wrappers
  import opened Strings

  /** A row of `posts`. `contentUrl` and `text` are nullable columns. */
  datatype PostRow = PostRow(
    id: nat,
    sid: nat,          // the source this post came from
    pid: string,       // provider identifier, "<provider>:<channel>:<message>"
    url: string,
    contentUrl: Option<string>,
    text: Option<string>,
    score: int,
    createdAt: int)    // seconds since the epoch

  /** A row of `sources`; `scoreAvg` is the source's typical score. */
  datatype Source = Source(id: nat, title: string, logoUrl: string, scoreAvg: real)

  /** A row of `post_tags`. */
  datatype TagRow = TagRow(postId: nat, tag: string)

  /** A row of `sources JOIN posts ON posts.sid = sources.id`. */
  datatype Row = Row(post: PostRow, source: Source)

  function JoinSource(s: Source, posts: seq<PostRow>): (r: seq<Row>)
    ensures forall x :: x in r <==> x.source == s && x.post in posts && x.post.sid == s.id
  {
    if |posts| == 0 then []
    else (if posts[0].sid == s.id then [Row(posts[0], s)] else []) + JoinSource(s, posts[1..])
  }

  /** The inner join every feed query starts from: a post without a
      matching source never reaches a result. */
  function Join(sources: seq<Source>, posts: seq<PostRow>): (r: seq<Row>)
    ensures forall x :: x in r <==> x.source in sources && x.post in posts && x.post.sid == x.source.id
  {
    if |sources| == 0 then []
    else JoinSource(sources[0], posts) + Join(sources[1..], posts)
  }

  /** `CASE WHEN content_url = "" THEN url ELSE content_url END`. A NULL
      content_url makes the comparison NULL, so the ELSE branch yields NULL. */
  function MainUrl(p: PostRow): Option<string> {
    match p.contentUrl
    case None => None
    case Some(c) => if c == "" then Some(p.url) else Some(c)
  }

  /** `text IS NOT NULL AND NOT text = ''` (no trimming). */
  predicate HasText(p: PostRow) {
    p.text.Some? && p.text.value != ""
  }

  /** `created_at > now - ageHours * 60 * 60`. */
  predicate WithinAge(p: PostRow, now: int, ageHours: nat) {
    p.createdAt > now - ageHours * 60 * 60
  }

  const NetworkStatusChannel: string := "discord:844618231553720330:"
  const AnnouncementsChannel: string := "discord:370285586894028811:"
  const BetaAnnouncementsChannel: string := "discord:572793415138410517:"
  const RepAnnouncementsChannel: string := "discord:644987172935565335:"
  const GeneralChannel: string := "discord:370266023905198085:"

  /** Channels kept out of the by-tag and top feeds. */
  const FeedExcludedChannels: seq<string> :=
    [NetworkStatusChannel, AnnouncementsChannel, BetaAnnouncementsChannel, RepAnnouncementsChannel]

  /** Channels the announcements feed draws from; beta-announcements is
      disabled in the source (its condition is commented out). */
  const AnnouncementChannels: seq<string> :=
    [NetworkStatusChannel, AnnouncementsChannel, RepAnnouncementsChannel]

  /** A strength or ordering value; `Null` is SQL NULL, which sorts below
      every number. */
  datatype Rank = Null | Val(v: real)

  predicate RankLt(a: Rank, b: Rank) {
    match (a, b)
    case (Null, Val(_)) => true
    case (Val(x), Val(y)) => x < y
    case _ => false
  }

  predicate RankLe(a: Rank, b: Rank) {
    !RankLt(b, a)
  }

  /** `posts.score / sources.score_avg`; division by zero is NULL in SQL. */
  function PlainStrength(r: Row): Rank {
    if r.source.scoreAvg == 0.0 then Null
    else Val(r.post.score as real / r.source.scoreAvg)
  }

  /** Seconds of age that cost one unit of trending strength. */
  const Decay: nat := 90000

  /** `LOG10(score / score_avg) - (now - created_at) / 90000`. The logarithm
      (computed by the database in floating point, NULL for a non-positive
      ratio) is supplied as `logScore`. */
  function DecayedStrength(r: Row, now: int, logScore: Row -> Rank): Rank {
    match logScore(r)
    case Null => Null
    case Val(l) => Val(l - (now - r.post.createdAt) as real / Decay as real)
  }

  /** Of two posts with the same score ratio, the older one is never ranked
      above the newer one, and is strictly below it. */
  lemma DecayMonotonic(a: Row, b: Row, now: int, logScore: Row -> Rank)
    requires logScore(a) == logScore(b) && logScore(a).Val?
    requires a.post.createdAt < b.post.createdAt
    ensures RankLt(DecayedStrength(a, now, logScore), DecayedStrength(b, now, logScore))
  {
    var d := Decay as real;
    assert (now - a.post.createdAt) as real / d > (now - b.post.createdAt) as real / d by {
      assert (now - a.post.createdAt) as real > (now - b.post.createdAt) as real;
    }
  }

  /** The beta-announcements channel is distinct from every announcement
      channel that is enabled: no pid can start with both. */
  lemma BetaChannelDisabled(pid: string)
    requires StartsWith(pid, BetaAnnouncementsChannel)
    ensures !StartsWithAny(pid, AnnouncementChannels)
  {
    assert pid[8] == BetaAnnouncementsChannel[8] == '5';
    forall i | 0 <= i < |AnnouncementChannels|
      ensures !StartsWith(pid, AnnouncementChannels[i])
    {
      assert AnnouncementChannels[i][8] != '5';
    }
  }
}

=== FILE: sorting.dfy ===
/** A stable sort driven by a comparator with JavaScript's convention:
    `cmp(a, b) > 0` puts `b` first, anything else keeps `a` first.
    It models both `Array.prototype.sort(comparefn)` (stable since
    ECMA-262 2019, with a NaN comparator result read as +0 by
    CompareArrayElements, section 23.1.3.30.2) and an SQL `ORDER BY`
    whose ties keep the order in which rows reach it. */
module Sorting {

  /** Inserts `x` into `sorted`, after every element that does not compare
      greater than it. */
  function Insert<T>(sorted: seq<T>, x: T, cmp: (T, T) -> int): (r: seq<T>)
    ensures |r| == |sorted| + 1
    ensures multiset(r) == multiset(sorted) + multiset{x}
  {
    if |sorted| == 0 then [x]
    else if cmp(sorted[0], x) > 0 then [x] + sorted
    else
      assert sorted == [sorted[0]] + sorted[1..];
      [sorted[0]] + Insert(sorted[1..], x, cmp)
  }

  /** Insertion sort: each element in turn is inserted into the sorted
      prefix before it. */
  function Sort<T>(s: seq<T>, cmp: (T, T) -> int): (r: seq<T>)
    ensures |r| == |s|
    ensures multiset(r) == multiset(s)
  {
    if |s| == 0 then []
    else
      assert s == s[..|s| - 1] + [s[|s| - 1]];
      Insert(Sort(s[..|s| - 1], cmp), s[|s| - 1], cmp)
  }

  /** A comparator that describes a total preorder: antisymmetric in sign
      and transitive in "not after". */
  ghost predicate Consistent<T(!new)>(cmp: (T, T) -> int) {
    && (forall a, b :: cmp(a, b) > 0 <==> cmp(b, a) < 0)
    && (forall a, b, c :: cmp(a, b) <= 0 && cmp(b, c) <= 0 ==> cmp(a, c) <= 0)
  }

  /** No element is placed after one that should follow it. */
  ghost predicate SortedBy<T>(s: seq<T>, cmp: (T, T) -> int) {
    forall i, j :: 0 <= i < j < |s| ==> cmp(s[i], s[j]) <= 0
  }

  /** No two positions carry the same key. */
  ghost predicate DistinctBy<T, K>(s: seq<T>, key: T -> K) {
    forall i, j :: 0 <= i < j < |s| ==> key(s[i]) != key(s[j])
  }

  /** Insertion keeps a sequence ordered. */
  lemma {:induction false} InsertSorted<T(!new)>(sorted: seq<T>, x: T, cmp: (T, T) -> int)
    requires Consistent(cmp)
    requires SortedBy(sorted, cmp)
    ensures SortedBy(Insert(sorted, x, cmp), cmp)
  {
    if |sorted| == 0 {
    } else if cmp(sorted[0], x) > 0 {
      InsertAtFront(sorted, x, cmp);
    } else {
      var rest := sorted[1..];
      forall i, j | 0 <= i < j < |rest|
        ensures cmp(rest[i], rest[j]) <= 0
      {
        assert rest[i] == sorted[i + 1] && rest[j] == sorted[j + 1];
      }
      InsertSorted(rest, x, cmp);
      var tail := Insert(rest, x, cmp);
      forall k | 0 <= k < |tail|
        ensures cmp(sorted[0], tail[k]) <= 0
      {
        assert tail[k] in multiset(tail);
        if tail[k] != x {
          assert tail[k] in multiset(rest);
          var m :| 0 <= m < |rest| && rest[m] == tail[k];
          assert sorted[m + 1] == tail[k];
        }
      }
      ConsSorted(sorted[0], tail, cmp);
      assert Insert(sorted, x, cmp) == [sorted[0]] + tail;
    }
  }

  /** An element that compares before the head of an ordered sequence
      can go in front of it. */
  lemma InsertAtFront<T(!new)>(sorted: seq<T>, x: T, cmp: (T, T) -> int)
    requires Consistent(cmp)
    requires SortedBy(sorted, cmp)
    requires |sorted| > 0 && cmp(sorted[0], x) > 0
    ensures SortedBy([x] + sorted, cmp)
  {
    assert cmp(x, sorted[0]) < 0;
    forall k | 0 <= k < |sorted|
      ensures cmp(x, sorted[k]) <= 0
    {
      if k > 0 {
        assert cmp(sorted[0], sorted[k]) <= 0;
      }
    }
    ConsSorted(x, sorted, cmp);
  }

  /** An element that compares before every element of an ordered
      sequence can be prepended to it. */
  lemma ConsSorted<T>(h: T, t: seq<T>, cmp: (T, T) -> int)
    requires SortedBy(t, cmp)
    requires forall k :: 0 <= k < |t| ==> cmp(h, t[k]) <= 0
    ensures SortedBy([h] + t, cmp)
  {
    var s := [h] + t;
    forall i, j | 0 <= i < j < |s|
      ensures cmp(s[i], s[j]) <= 0
    {
      assert s[j] == t[j - 1];
      if i > 0 {
        assert s[i] == t[i - 1];
      }
    }
  }

  /** With a consistent comparator the result is ordered. */
  lemma {:induction false} SortSorted<T(!new)>(s: seq<T>, cmp: (T, T) -> int)
    requires Consistent(cmp)
    ensures SortedBy(Sort(s, cmp), cmp)
  {
    if |s| > 0 {
      SortSorted(s[..|s| - 1], cmp);
      InsertSorted(Sort(s[..|s| - 1], cmp), s[|s| - 1], cmp);
    }
  }

  lemma {:induction false} InsertAtEnd<T>(sorted: seq<T>, x: T, cmp: (T, T) -> int)
    requires forall k :: 0 <= k < |sorted| ==> cmp(sorted[k], x) <= 0
    ensures Insert(sorted, x, cmp) == sorted + [x]
  {
    if |sorted| > 0 {
      InsertAtEnd(sorted[1..], x, cmp);
    }
  }

  /** When every comparison among the elements is 0 (in JavaScript: every
      `a - b` is NaN), the stable sort returns its input unchanged. */
  lemma {:induction false} SortAllEqualIsIdentity<T>(s: seq<T>, cmp: (T, T) -> int)
    requires forall i, j :: 0 <= i < |s| && 0 <= j < |s| ==> cmp(s[i], s[j]) == 0
    ensures Sort(s, cmp) == s
  {
    if |s| > 0 {
      var init := s[..|s| - 1];
      var last := s[|s| - 1];
      TiesOfPrefix(s, cmp);
      SortAllEqualIsIdentity(init, cmp);
      InsertAtEnd(init, last, cmp);
      calc {
        Sort(s, cmp);
        Insert(Sort(init, cmp), last, cmp);
        Insert(init, last, cmp);
        init + [last];
        s;
      }
    }
  }

  /** Dropping the last element keeps all comparisons 0, and the last
      element ties with every other. */
  lemma TiesOfPrefix<T>(s: seq<T>, cmp: (T, T) -> int)
    requires |s| > 0
    requires forall i, j :: 0 <= i < |s| && 0 <= j < |s| ==> cmp(s[i], s[j]) == 0
    ensures var init := s[..|s| - 1];
      && (forall i, j :: 0 <= i < |init| && 0 <= j < |init| ==> cmp(init[i], init[j]) == 0)
      && (forall k :: 0 <= k < |init| ==> cmp(init[k], s[|s| - 1]) <= 0)
  {
    var init := s[..|s| - 1];
    assert forall i :: 0 <= i < |init| ==> init[i] == s[i];
  }

  lemma {:induction false} InsertDistinct<T, K>(sorted: seq<T>, x: T, cmp: (T, T) -> int, key: T -> K)
    requires DistinctBy(sorted, key)
    requires forall k :: 0 <= k < |sorted| ==> key(sorted[k]) != key(x)
    ensures DistinctBy(Insert(sorted, x, cmp), key)
  {
    if |sorted| > 0 && cmp(sorted[0], x) <= 0 {
      var rest := sorted[1..];
      InsertDistinct(rest, x, cmp, key);
      var tail := Insert(rest, x, cmp);
      forall k | 0 <= k < |tail|
        ensures key(sorted[0]) != key(tail[k])
      {
        assert tail[k] in multiset(tail);
        if tail[k] != x {
          assert tail[k] in multiset(rest);
          var m :| 0 <= m < |rest| && rest[m] == tail[k];
          assert sorted[m + 1] == tail[k];
        }
      }
    }
  }

  /** Sorting reorders but never makes two keys collide. */
  lemma {:induction false} SortDistinct<T, K>(s: seq<T>, cmp: (T, T) -> int, key: T -> K)
    requires DistinctBy(s, key)
    ensures DistinctBy(Sort(s, cmp), key)
  {
    if |s| > 0 {
      var init := s[..|s| - 1];
      var last := s[|s| - 1];
      SortDistinct(init, cmp, key);
      var sorted := Sort(init, cmp);
      forall k | 0 <= k < |sorted|
        ensures key(sorted[k]) != key(last)
      {
        assert sorted[k] in multiset(sorted);
        assert sorted[k] in multiset(init);
        var m :| 0 <= m < |init| && init[m] == sorted[k];
        assert s[m] == sorted[k];
      }
      InsertDistinct(sorted, last, cmp, key);
    }
  }

  /** Sorting moves elements but adds none: a property of every input
      element holds of every output element. */
  lemma SortKeepsAll<T>(s: seq<T>, cmp: (T, T) -> int, p: T -> bool)
    requires forall i :: 0 <= i < |s| ==> p(s[i])
    ensures var r := Sort(s, cmp); forall i :: 0 <= i < |r| ==> p(r[i])
  {
    var r := Sort(s, cmp);
    forall i | 0 <= i < |r|
      ensures p(r[i])
    {
      assert r[i] in multiset(r);
      assert r[i] in multiset(s);
      var k :| 0 <= k < |s| && s[k] == r[i];
    }
  }

  /** Sorting drops nothing: every input element occurs in the output. */
  lemma SortKeepsEach<T>(s: seq<T>, cmp: (T, T) -> int, k: nat)
    requires k < |s|
    ensures s[k] in Sort(s, cmp)
  {
    assert s[k] in multiset(s);
    assert s[k] in multiset(Sort(s, cmp));
  }
}

=== FILE: strings.dfy ===
/** String helpers with the meaning JavaScript and SQL give them:
    `LIKE 'p%'` prefix matching, `Array.prototype.join`, and the decimal
    rendering of a non-negative integer in a template literal. */
module Strings {

  /** `s LIKE 'prefix%'` for a prefix without the wildcards `%` and `_`. */
  predicate StartsWith(s: string, prefix: string) {
    |prefix| <= |s| && s[..|prefix|] == prefix
  }

  /** True when `s` starts with at least one of `prefixes`. */
  predicate StartsWithAny(s: string, prefixes: seq<string>) {
    exists i :: 0 <= i < |prefixes| && StartsWith(s, prefixes[i])
  }

  /** `parts.join(sep)`: the parts in order, `sep` between neighbours. */
  function Join(parts: seq<string>, sep: string): (r: string)
    ensures |parts| == 0 ==> r == ""
    ensures |parts| == 1 ==> r == parts[0]
    ensures |parts| >= 1 ==> StartsWith(r, parts[0])
  {
    if |parts| == 0 then ""
    else if |parts| == 1 then parts[0]
    else parts[0] + sep + Join(parts[1..], sep)
  }

  predicate IsDigit(c: char) {
    '0' <= c <= '9'
  }

  predicate AllDigits(s: string) {
    forall i :: 0 <= i < |s| ==> IsDigit(s[i])
  }

  function DigitChar(d: nat): (c: char)
    requires d < 10
    ensures IsDigit(c) && c as int - '0' as int == d
  {
    ('0' as int + d) as char
  }

  /** Decimal rendering of a non-negative integer: digits only, no leading
      zero. This is what JavaScript's `${n}` produces for an integral
      Number below 10^21; larger Numbers render in exponent form. */
  function NatToString(n: nat): (s: string)
    ensures |s| > 0 && AllDigits(s)
    ensures s[0] == '0' ==> s == "0"
    decreases n
  {
    if n < 10 then [DigitChar(n)]
    else NatToString(n / 10) + [DigitChar(n % 10)]
  }

  /** The value of a string of decimal digits (the reading of `parseInt`
      restricted to digit strings). */
  function DigitsValue(s: string): nat
    requires AllDigits(s)
  {
    if |s| == 0 then 0
    else DigitsValue(s[..|s| - 1]) * 10 + (s[|s| - 1] as int - '0' as int)
  }

  /** Reading back a rendered integer gives the integer. */
  lemma {:induction false} DecimalRoundTrip(n: nat)
    ensures DigitsValue(NatToString(n)) == n
    decreases n
  {
    if n >= 10 {
      var s := NatToString(n);
      assert s[..|s| - 1] == NatToString(n / 10);
      DecimalRoundTrip(n / 10);
    }
  }

  /** Two integers render to the same text exactly when they are equal. */
  lemma DecimalInjective(a: nat, b: nat)
    ensures NatToString(a) == NatToString(b) <==> a == b
  {
    if NatToString(a) == NatToString(b) {
      DecimalRoundTrip(a);
      DecimalRoundTrip(b);
    }
  }

  /** Joining two distinct parts in the two orders gives two different
      strings when neither part contains the separator. */
  lemma SwappedJoinDiffers(a: string, b: string, sep: char)
    requires a != b
    requires sep !in a && sep !in b
    ensures Join([b, a], [sep]) != Join([a, b], [sep])
  {
    var x, y := Join([b, a], [sep]), Join([a, b], [sep]);
    assert x == b + [sep] + a && y == a + [sep] + b;
    if |a| < |b| {
      assert x[|a|] == b[|a|] != sep == y[|a|];
    } else if |b| < |a| {
      assert x[|b|] == sep != a[|b|] == y[|b|];
    } else {
      assert x[..|a|] == b != a == y[..|a|];
    }
  }
}

=== FILE: wrappers.dfy ===
/** Optional values (SQL NULL, absent query parameters) and fallible results
    (a storage call that throws). */
module Wrappers {

  datatype Option<+T> = None | Some(value: T) {

    /** The value, or `default` when absent (JavaScript's `x || default`
        for a parameter that is either missing or present). */
    function GetOr(default: T): T {
      match this
      case Some(v) => v
      case None => default
    }
  }

  /** The outcome of a call into storage: its rows, or the text of the
      error it raised. */
  datatype Result<+T> = Success(value: T) | Failure(error: string)
}
